=== FILE: README.md ===
# lsgo presentation core in Dafny

A model of the pure logic of `lsgo`, an `ls` clone written in Go. The model covers:

- the human-readable byte size (`HumanBytes`);
- the `drwxr-xr-x` permission string (`permissionsString`);
- the glyph chosen for each entry (`NerdIconForFile`, and the two older variants `nerdIconForFile` and `iconForFile` in main.go);
- the cells handed to the table writer, and the fields of a long-format line;
- the enrichment loop of `getFiles`;
- the checks both entry points run before listing;
- the `sort.Slice` comparator and the JSON/table dispatch of `Run`;
- the stand-alone `main`.

Everything is a pure function over immutable datatypes. The file system, the clock and the terminal appear only as inputs or are left out.

| file | module | models |
|---|---|---|
| wrappers.dfy | `Wrappers` | `Option` and `Result` |
| decimal.dfy | `Decimal` | `%d` formatting and its parser |
| filepath.dfy | `FilePath` | `filepath.Ext`, and `<` on strings as code-point order |
| fileops.dfy | `FileOps` | `EntryType`, `FileEntry`, `HumanBytes` |
| permissions.dfy | `Permissions` | `permissionsString` and its decoder |
| icons.dfy | `Icons` | `NerdIconForFile`; glyph code points |
| legacy_icons.dfy | `LegacyIcons` | `nerdIconForFile` and `iconForFile` of main.go |
| output.dfy | `Output` | cells of `PrintTable`, fields of `PrintLong` |
| loader.dfy | `Loader` | the loop of `getFiles` |
| invocation.dfy | `Invocation` | path choice, `Abs`/`Stat`/`ReadDir` error cascade |
| ls.dfy | `Ls` | comparator, sort, `Run` |
| legacy.dfy | `Legacy` | `printTable` and `main` of main.go |

Modelling choices:

- **Sizes.** `HumanBytes` is split into `Humanize` and `Render`.
  - `Humanize` chooses a plain value or a scaled value. A scaled value is held as integer tenths of the unit `1000^(exp+1)`, rounded half-up.
  - `Render` prints the choice. It follows the code's `%d` for small values, and `%.1f` plus one suffix letter otherwise.
  - `HumanBytesLoop` mirrors the Go loop step by step and is proved equal to the functional form.
- **Permissions.** The type bits of a mode are kept as two flags and the permission bits as a 32-bit word. `CanonicalString` shows that only the nine low bits are read.
- **Glyphs.** They are private-use characters, so each branch is a constructor of `Glyph`. `CodePoint` gives the character each branch returns. The older text glyph of main.go (U+F49E) differs from the newer one (U+F15C), so it has its own constructor, `LegacyText`.
- **Sorting.** `sort.Slice` is specified by `IsSortOf`: a sorted rearrangement of its input. `SortEntries` is an insertion sort that meets it. With unique names only one sorted order exists, so any implementation of `sort.Slice` returns `SortEntries`' result.

Points where the code does less, or other, than a reader of its flags and names might expect; the model follows the code:

- Scaled sizes always print one decimal (`%.1f`). There is no zero-decimal form for values of ten and more.
- Negative sizes are accepted. They print as plain `%d` text.
- There is no cap at "E". Instead, `MagnitudeAtMostFive` proves that every `int64` stays within the suffix string.
- `Run` selects JSON, then the table, then nothing: the list branch is a TODO. The one-line, long and all switches are never acted on beyond the debug print at cmd/ls.go:17, so there is no hidden-file filter and no long dispatch. `UnusedFlagsIgnored` states this.
- JSON output is unsorted. Only the non-JSON branch sorts.
- `sort.Slice` is not stable. Stability only matters for ties, and with unique names there are none.
- The `printTable` of main.go shows raw byte counts and does not sort. `RawAndHumanSizes` and `MainKeepsReadOrder` state this.
- `Run` takes the path from the standard `flag` package's positional arguments, not from its own `args` parameter. Nothing in the cmd package calls `flag.Parse()`, and cobra parses only its own flag set. As the code stands, `flag.NArg()` is therefore 0 there, so the cobra command always lists ".". The model takes those positional arguments as an input, so it covers both this case (`args` empty) and a parsed flag set.
- A failed check prints its red message on standard output and returns, so the exit status stays 0 (main.go:191-206, cmd/ls.go:24-39). `Run` has no error result, and `Execute` in cmd/root.go exits with status 1 only when cobra itself reports an error. In `Ls.Run` and `Legacy.MainRun`, `Failed` and `MainFailed` stand for that printed message, not for a process failure.
- `getFiles` returns a nil slice when no entry can be read, and `json.MarshalIndent` prints a nil slice as `null`, not `[]`. The model's empty sequence stands for both.

## Model

| member | source | states |
|---|---|---|
| Decimal.FormatIntRoundTrip | fileops/fileops.go:22 | the `%d` text of any integer reads back as that integer |
| Decimal.FormatNatRoundTrip | fileops/fileops.go:22 | the digits of a natural number read back as the number |
| Decimal.FormatIntInjective | output/output.go:81 | distinct integers print differently |
| Decimal.FormatInt | output/output.go:81 | a minus sign exactly for negative values, then digits; never empty |
| Decimal.ParseNatCanonical | fileops/fileops.go:22 | the digit parser accepts only the text `%d` prints: what it reads prints back to the same text |
| Decimal.ParseIntCanonical | fileops/fileops.go:22 | the integer parser accepts only `%d` text (no leading zeros, no "-0"), so a cell that reads back as `x` is the `%d` text of `x` |
| FileOps.TypeNameRoundTrip | fileops/fileops.go:5-10 | the type string of each kind ("File", "Dir") identifies the kind |
| FileOps.Magnitude | fileops/fileops.go:24-28 | the loop's step count `exp` satisfies `1000^(exp+1) <= b < 1000^(exp+2)` |
| FileOps.MagnitudeUnique | fileops/fileops.go:24-28 | only one step count brackets a size that way |
| FileOps.MagnitudeMonotonic | fileops/fileops.go:24-29 | the suffix index never decreases as the size grows |
| FileOps.MagnitudeAtMostFive | fileops/fileops.go:25-29 | for every `int64` the index into "kMGTPE" is at most 5 |
| FileOps.RoundHalfUp | fileops/fileops.go:29 | adding half the divisor before dividing yields the nearest integer, ties upwards |
| FileOps.Humanize | fileops/fileops.go:19-29 | plain exactly below 1000 and then equal to the input; otherwise the bracketing unit and the rounded tenths of the size in it |
| FileOps.HumanBytes | fileops/fileops.go:19-30 | below 1000 the `%d` text; otherwise digits without a leading zero, a point, one fractional digit, one suffix letter |
| FileOps.Render | fileops/fileops.go:22-29 | a display ends in a suffix letter exactly when it is scaled; a plain one ends in a digit |
| FileOps.LeadingDigit | fileops/fileops.go:29 | from 1000 up the printed value starts with a non-zero digit, as `%.1f` of a value of at least 1 does |
| FileOps.ParseHumanCanonical | fileops/fileops.go:19-30 | the size parser accepts only text the formatter prints: what it reads renders back to the same text |
| FileOps.HumanBytesExact | fileops/fileops.go:19-30 | the only text that reads back as `Humanize(b)` is `HumanBytes(b)` |
| FileOps.HumanBytesLoop | fileops/fileops.go:19-30 | the loop with `div` and `exp`, run to the end, gives the same text as the functional form; its invariants are `div = 1000^(exp+1)` and `n*div <= bytes < (n+1)*div` |
| FileOps.LoopExit | fileops/fileops.go:25-29 | when the loop stops, its step count is the magnitude and its divisor yields `Humanize`'s tenths |
| FileOps.QuotientStep | fileops/fileops.go:25-27 | one turn of the loop keeps the quotient bracket and keeps the divisor below the size |
| FileOps.HumanBytesRoundTrip | fileops/fileops.go:19-30 | the printed size parses back to the value and unit `Humanize` chose |
| FileOps.RenderRoundTrip | fileops/fileops.go:22-29 | every well-formed size display parses back to itself |
| FileOps.ScaledIntegerPart | fileops/fileops.go:24-29 | from 1000 up, `bytes / div` lies in 1..999 and the rounded value in 1.0..1000.0 |
| FileOps.HumanBytesSmallExamples | fileops/fileops.go:21-23 | 999 gives "999" and -5 gives "-5" |
| FileOps.HumanBytesKiloExamples | fileops/fileops.go:24-29 | 1000 gives "1.0k" and 1500 gives "1.5k" |
| FileOps.HumanBytesCarryExample | fileops/fileops.go:24-29 | 999999 gives "1000.0k" (rounding carries past the unit) and 1000000 gives "1.0M" |
| FilePath.Ext | main.go:134 | the result is the suffix from the last dot of the final path component, or empty when there is no such dot |
| FilePath.ExtUnique | icons/icons.go:26 | only one string meets that description |
| FilePath.Less | cmd/ls.go:56 | a proper prefix is below its extensions, and nothing is below the empty string |
| FilePath.LessIrreflexive | cmd/ls.go:56 | no name is below itself |
| FilePath.LessTransitive | cmd/ls.go:56 | the name order is transitive |
| FilePath.LessTotal | cmd/ls.go:56 | any two different names are ordered one way or the other |
| FilePath.LessIffDiffersBelow | cmd/ls.go:56 | `a < b` exactly when `a` is a proper prefix of `b` or has the smaller character at the first difference |
| Permissions.PermissionsString | output/output.go:101-131 | ten characters; 'd' for a directory even if it is also a link, else 'l' for a link, else '-'; character `k` is the `rwx` letter of bit `0400 >> (k-1)` or '-' |
| Permissions.MaskIsShift | output/output.go:111-115 | the nine masks are `0400 >> i` |
| Permissions.DecodeRoundTrip | output/output.go:101-131 | the string decodes to the mode with only its type and its nine permission bits kept |
| Permissions.EncodeRoundTrip | output/output.go:101-131 | every well-formed permission string is the image of the mode it decodes to |
| Permissions.CanonicalString | output/output.go:111-129 | bits outside 0777, and the link flag of a directory, do not change the string |
| Permissions.SameStringIffSameCanonical | output/output.go:101-131 | two modes print alike exactly when they agree on type and on the nine permission bits |
| Permissions.PermissionsExamples | output/output.go:100-129 | 0755 gives "-rwxr-xr-x" on a file and "drwxr-xr-x" on a directory |
| Icons.NerdIconForFile | icons/icons.go:5-73 | a directory gets the git glyph exactly when named ".git", otherwise the folder; a file gets its name case's glyph when it has one, and otherwise the extension switch's glyph for its extension |
| Icons.ExactNameGlyph | icons/icons.go:14-23 | "Makefile" and "makefile" give make, "CMakeLists.txt" config, ".gitignore" gitignore, "Dockerfile" docker, each exactly for those names; no other name has a case |
| Icons.ExtGlyph | icons/icons.go:26-73 | the extension switch never yields a directory glyph or an exact-name glyph |
| Icons.CodePointRoundTrip | icons/icons.go:5-73 | the category is recoverable from the character returned |
| Icons.CodePointInjective | icons/icons.go:5-73 | distinct categories return distinct characters |
| Icons.CodePoint | icons/icons.go:5-73 | each branch returns one fixed code point between U+E000 and U+FFFFF |
| Icons.FromCodePointInverse | icons/icons.go:5-73 | a code point that reads as a category is the code point of that category |
| Icons.IconChar | icons/icons.go:5-73 | the glyph character reads back as its category |
| Icons.ExtGlyphInverse | icons/icons.go:26-70 | each category is chosen for exactly the extensions its case lists, so extensions that share a case share a category |
| Icons.ChosenHasExtension | icons/icons.go:26-70 | a category is chosen only for extensions its case lists |
| Icons.CasesDisjoint | icons/icons.go:26-70 | no extension is listed in two cases |
| Icons.GenericIffUnknown | icons/icons.go:26-73 | the generic glyph is chosen exactly for the extensions without a case |
| Icons.GenericIffUnmatched | icons/icons.go:5-73 | an entry gets the generic glyph exactly when it is a file with neither a name case nor an extension case |
| Icons.FileByExtension | icons/icons.go:14-26 | a file without a name case is judged by its extension alone |
| Icons.KnownExtensionShape | icons/icons.go:27-70 | every listed extension is a dot and lower-case letters |
| Icons.CMakeListsByExtension | icons/icons.go:26-70 | "CMakeLists.txt" has the text extension |
| Icons.CMakeListsByName | icons/icons.go:17-18 | ...yet gets the config glyph, because names come first |
| Icons.MakefileExamples | icons/icons.go:15-16 | "Makefile" and "makefile" get the make glyph |
| Icons.UpperCaseMakefile | icons/icons.go:14-72 | "MAKEFILE" gets the generic glyph |
| Icons.LastDotCounts | icons/icons.go:26-68 | "notes.go.md" is judged by ".md" |
| Icons.GoSumIsGo | icons/icons.go:26-28 | "go.sum" gets the Go glyph |
| Icons.UpperCaseExtension | icons/icons.go:26-72 | "main.GO" gets the generic glyph |
| Icons.LowerCaseExtension | icons/icons.go:26-28 | "main.go" gets the Go glyph |
| Icons.DirectoryExamples | icons/icons.go:6-11 | ".git" as a directory gets the git glyph, and "src.go" as a directory gets the folder |
| LegacyIcons.LegacyNerdIconForFile | main.go:115-153 | ".git" directories get the git glyph, other directories the folder; a file gets its name case's glyph when it has one, and otherwise the older extension switch's glyph |
| LegacyIcons.LegacyExactNameGlyph | main.go:124-131 | "Makefile" and "makefile" give make, "CMakeLists.txt" config, ".gitignore" gitignore, each exactly for those names; there is no Dockerfile case |
| LegacyIcons.LegacyExtGlyph | main.go:134-153 | only the Go, Rust, Python, C, header, C++, Markdown, older-text or generic glyph, and the older text glyph exactly for ".txt" |
| LegacyIcons.LegacyGenericIffUnknown | main.go:134-153 | the older switch falls to generic exactly for extensions it does not list |
| LegacyIcons.LegacyKnownIsKnown | main.go:134-150 | every extension the older switch lists, the newer one lists too |
| LegacyIcons.LegacyExtAgrees | main.go:134-148 | where the older switch picks a category other than generic or its text glyph, the newer switch picks the same one |
| LegacyIcons.NewerExtendsLegacy | main.go:115-153 | the same holds for the whole cascade |
| LegacyIcons.TextGlyphsDiffer | main.go:149-150 | ".txt" files get a different text glyph from the older cascade |
| LegacyIcons.LegacyDockerfile | main.go:124-152 | "Dockerfile" gets the generic glyph from the older cascade |
| LegacyIcons.NewerDockerfile | icons/icons.go:21-22 | ...and the docker glyph from the newer one |
| LegacyIcons.GitIgnoreInBoth | main.go:129-130 | ".gitignore" gets the gitignore glyph from the older cascade, as from the newer one (icons.go lines 19-20) |
| LegacyIcons.IconForFile | main.go:156-179 | the folder emoji exactly for directories, ".git" included; a file gets the emoji of its extension |
| LegacyIcons.IconForFileByCase | main.go:161-175 | a file gets a case emoji exactly when that case lists its extension |
| LegacyIcons.SourceAndTextExamples | main.go:162-165 | "main.go" gets the wrench and "notes.txt" the memo |
| LegacyIcons.ExtEmoji | main.go:161-178 | the extension switch never yields the folder |
| LegacyIcons.ExtEmojiInverse | main.go:161-175 | each emoji other than folder and page is chosen for exactly the extensions of its case |
| LegacyIcons.PageIffUnlisted | main.go:161-178 | the page is chosen exactly for the extensions no case lists |
| LegacyIcons.EmojiByExtensionOnly | main.go:156-179 | files with the same extension get the same emoji: no name is special |
| LegacyIcons.MakefileIsPage | main.go:176-177 | "Makefile" gets the page |
| LegacyIcons.NotesAreMemo | main.go:164-165 | ".md" files get the memo |
| Output.NameCell | output/output.go:17-19 | the first cell reads back as the entry's glyph and its name |
| Output.Row | output/output.go:17-23 | four cells, from which the glyph, name, kind, displayed size and date are recovered |
| Output.NameCellExact | output/output.go:17-19 | the only cell that reads back as an entry's glyph and name is the glyph, a space and the name |
| Output.RowExact | output/output.go:17-23 | any four cells meeting `Row`'s contract are exactly the cells `PrintTable` builds, so the contract fixes every character |
| Output.PrintTable | output/output.go:14-66 | the fixed header; one row per entry in input order; a footer of "", "Total Files", the entry count (reading back as the number of entries) and "" |
| Output.LongLineOf | output/output.go:76-94 | the permission string decodes to the entry's mode; the link count reads back; dash exactly for directories, otherwise the size that parses to `Humanize`; the glyph, name, owner, group and date are carried over |
| Output.LongLineExact | output/output.go:76-94 | any line meeting `LongLineOf`'s contract is exactly the line `PrintLong` prints |
| Output.PrintLong | output/output.go:73-96 | one line per entry in order, each the line `LongLineOf` describes: permission string, link count, dash or size, owner, group, date, glyph and name |
| Loader.EntryOf | main.go:42-52 | the kind is Dir exactly when the entry is a directory; name, size and date are carried over |
| Loader.Enrich | main.go:37-53 | never longer than the directory listing, and as long exactly when every metadata call succeeds |
| Loader.EnrichAppend | main.go:37-53 | enrichment distributes over concatenation |
| Loader.EnrichKeepsReadable | main.go:37-53 | the result lines up, in order, with the entries whose metadata can be read, each converted |
| Loader.ReadableIsFilter | main.go:38-41 | the survivors come from the input and are exactly the entries with metadata |
| Loader.AllFailedIsEmpty | main.go:38-41 | when every metadata call fails the listing has no entries and no error is raised |
| Loader.AllReadableMapsEach | main.go:37-53 | when every metadata call succeeds, entry `i` becomes record `i` |
| Loader.GetFiles | main.go:29-55 | a failed directory read is returned as the error; otherwise the loop's result is the enrichment |
| Invocation.PreflightSucceeds | cmd/ls.go:19-39 | listing proceeds exactly when the path resolves, is not reported missing, and can be read |
| Invocation.TargetPath | cmd/ls.go:19-22 | the first positional argument, or "." when there is none |
| Invocation.Preflight | main.go:186-206 | on success the path is the resolved one, it was not reported missing, its directory was read, and the listing is no longer than what was read |
| Invocation.PreflightFailures | main.go:186-206 | the failure names the first step that failed |
| Invocation.StatErrorFallsThrough | cmd/ls.go:30-33 | a `Stat` error other than not-exist does not stop the run |
| Ls.BeforeIsKeyOrder | cmd/ls.go:49-57 | a directory before a file is true; a file before a directory is false; the same kind compares names |
| Ls.Before | cmd/ls.go:49-57 | a file is never before a directory, a directory is always before a file, and the same kinds compare by name |
| Ls.BeforeIrreflexive | cmd/ls.go:49-57 | no entry is before itself |
| Ls.BeforeTransitive | cmd/ls.go:49-57 | the comparator is transitive |
| Ls.BeforeAsymmetric | cmd/ls.go:49-57 | never both ways |
| Ls.Incomparable | cmd/ls.go:49-57 | entries are tied exactly when kind and name agree |
| Ls.NotBeforeTransitive | cmd/ls.go:49-57 | ties and order compose, making a strict weak order as `sort.Slice` needs |
| Ls.Insert | cmd/ls.go:49-57 | insertion into a sorted listing keeps it sorted and adds exactly the one entry |
| Ls.SortEntries | cmd/ls.go:49-57 | the reference sort returns a sorted rearrangement of its input |
| Ls.SortedDirsFirst | cmd/ls.go:50-55 | in a sorted listing every directory precedes every file |
| Ls.SortedNamesAscend | cmd/ls.go:56 | within a kind, names ascend |
| Ls.SortedUnique | cmd/ls.go:49-57 | with unique names there is one sorted order |
| Ls.SortSpecDeterminate | cmd/ls.go:49-57 | with unique names, any result `sort.Slice` may return equals the reference sort |
| Ls.SortIdempotent | cmd/ls.go:49-57 | sorting a sorted listing changes nothing |
| Ls.SortTwice | cmd/ls.go:49-57 | sorting twice is sorting once |
| Ls.Run | cmd/ls.go:16-39 | the run ends with a printed error message (not a non-zero exit) exactly when the checks before listing fail |
| Ls.JsonTakesPrecedence | cmd/ls.go:41-47 | with JSON selected the output is the listing in read order, whatever the table flag says |
| Ls.TableIsSorted | cmd/ls.go:48-59 | otherwise the table flag prints a table of a sorted rearrangement |
| Ls.NeitherPrintsNothing | cmd/ls.go:58-62 | with neither flag nothing is printed |
| Ls.UnusedFlagsIgnored | cmd/ls.go:17-62 | the one-line, long and all switches never change the result |
| Legacy.RawRow | main.go:59-65 | name, kind, raw `%d` byte count and date, each recoverable |
| Legacy.RawRowExact | main.go:59-65 | any four cells meeting `RawRow`'s contract are exactly the cells `printTable` builds |
| Legacy.PrintTableRaw | main.go:57-108 | one row per entry in order; a footer of "", "Total Files", the entry count (reading back as the number of entries) and "" |
| Legacy.RawAndHumanSizes | main.go:63 | the raw and the human size cells agree below 1000; from 1000 on only the human one has a point |
| Legacy.MainRun | main.go:181-217 | the program prints an error message and returns (exit status 0) exactly when the checks before listing fail; otherwise `-json` prints the listing as read, and its absence the raw table of that listing |
| Legacy.MainKeepsReadOrder | main.go:208-217 | JSON and table both keep the read order |
| Legacy.JsonOutputsAgree | main.go:208-214 | with JSON selected both entry points print the same listing |

## Left out

- Directory I/O: `os.ReadDir`, `entry.Info()`, `os.Stat` and `filepath.Abs` are inputs, through `Env` and `DirEntry`.
- Formatting the modification time as "Mon Jan 2 2006": the date arrives as text.
- The table writer, colours, borders, wrapping and ANSI escapes. The `Printf` padding of `PrintLong` is also left out. The model stops at the cells and fields handed to them.
- The error returns of `table.Bulk` and `table.Render`: they only stop printing.
- The `encoding/json` marshalling: only which sequence is marshalled is modelled. Its error branch cannot be reached for these records.
- The debug `Printf` of the flag values at the start of `Run`.
- Flag registration in cmd/root.go and flag parsing in main.go: the flags arrive as values.
- `FileOps.Humanize`: the float division and `%.1f` are modelled as exact rounding, half-way cases upwards. Go rounds the binary double to nearest-even, and doubles are inexact beyond 2^53 bytes. So a size whose tenths fall exactly on a half, or a size above 2^53, may show a last digit one off.
- types/types.go: a duplicate of the `FileEntry` declaration, modelled once.
- The fields `Mode`, `NumLinks`, `Owner` and `Group` that `PrintLong` reads are missing from `FileEntry`. `LongEntry` supplies them beside the entry instead.
- `cmd/ls.go` calls `fileops.GetFiles` and `table.PrintTable`, which are not part of this model. They are taken to behave as `getFiles` of main.go and `output.PrintTable`.
- The red error messages: each `Failure` constructor stands for one message.
- File names are sequences of code points (`string` is `seq<char>`), and `FilePath.Less` compares code points. This agrees with Go's byte-wise order on valid UTF-8. Names that hold bytes which are not valid UTF-8 cannot be represented.
- The difference between a nil and an empty listing: JSON output prints `null` for the first, and the model has one empty sequence for both.

=== FILE: decimal.dfy ===
/** Decimal rendering of integers, as Go's `fmt.Sprintf("%d", n)` prints them,
    together with the parser that reads such text back. */
module Decimal {
  import opened Wrappers

  predicate IsDigit(c: char) {
    '0' <= c <= '9'
  }

  predicate AllDigits(s: string) {
    forall i :: 0 <= i < |s| ==> IsDigit(s[i])
  }

  function DigitChar(d: nat): (c: char)
    requires d < 10
    ensures IsDigit(c)
    ensures DigitValue(c) == d
  {
    ('0' as int + d) as char
  }

  function DigitValue(c: char): (d: nat)
    requires IsDigit(c)
    ensures d < 10
  {
    c as int - '0' as int
  }

  /** The shortest decimal text of `n`: digits only, no leading zero. */
  function FormatNat(n: nat): (s: string)
    ensures 1 <= |s|
    ensures AllDigits(s)
    ensures s[0] == '0' ==> n == 0 && |s| == 1
    decreases n
  {
    if n < 10 then [DigitChar(n)] else FormatNat(n / 10) + [DigitChar(n % 10)]
  }

  /** `%d` of a signed integer: a minus sign exactly for negative values. */
  function FormatInt(x: int): (s: string)
    ensures 1 <= |s|
    ensures s[0] == '-' <==> x < 0
    ensures x >= 0 ==> AllDigits(s)
    ensures x < 0 ==> AllDigits(s[1..])
    ensures IsDigit(s[|s| - 1])
  {
    if x < 0 then "-" + FormatNat(-x) else FormatNat(x)
  }

  /** The value of a run of decimal digits, most significant first. */
  function DigitsValue(s: string): nat
    requires AllDigits(s)
    decreases |s|
  {
    if |s| == 0 then 0 else DigitsValue(s[..|s| - 1]) * 10 + DigitValue(s[|s| - 1])
  }

  /** Digit text as `%d` prints it: no leading zero unless the number is zero. */
  predicate NoLeadingZero(s: string) {
    |s| == 1 || (1 < |s| && s[0] != '0')
  }

  /** Reads a non-empty run of decimal digits without a leading zero, so that
      every number has exactly one text it is read from. */
  function ParseNat(s: string): (r: Option<nat>)
    ensures r.Some? <==> AllDigits(s) && NoLeadingZero(s)
  {
    if AllDigits(s) && NoLeadingZero(s) then Some(DigitsValue(s)) else None
  }

  /** Reads an optional minus sign followed by decimal digits; "-0" is not
      something `%d` prints and is refused. */
  function ParseInt(s: string): (r: Option<int>)
    ensures r.Some? ==> 1 <= |s| && (r.value < 0 <==> s[0] == '-')
  {
    if 1 <= |s| && s[0] == '-' then
      match ParseNat(s[1..])
      case Some(n) => if n == 0 then None else Some(-(n as int))
      case None => None
    else
      match ParseNat(s)
      case Some(n) => Some(n)
      case None => None
  }

  lemma {:induction false} FormatNatRoundTrip(n: nat)
    ensures ParseNat(FormatNat(n)) == Some(n)
    decreases n
  {
    var s := FormatNat(n);
    if n < 10 {
      assert s[..|s| - 1] == [];
      assert DigitsValue(s) == DigitsValue([]) * 10 + DigitValue(s[0]);
    } else {
      FormatNatRoundTrip(n / 10);
      assert s[..|s| - 1] == FormatNat(n / 10);
      assert s[|s| - 1] == DigitChar(n % 10);
    }
  }

  /** `%d` text is read back to the integer it was printed from. */
  lemma FormatIntRoundTrip(x: int)
    ensures ParseInt(FormatInt(x)) == Some(x)
  {
    var s := FormatInt(x);
    if x < 0 {
      var n: nat := -x;
      FormatNatRoundTrip(n);
      assert s[1..] == FormatNat(n);
      assert ParseNat(s[1..]) == Some(n) && n != 0;
    } else {
      FormatNatRoundTrip(x);
      assert s == FormatNat(x) && s[0] != '-';
    }
  }

  /** Distinct integers print differently. */
  lemma FormatIntInjective(x: int, y: int)
    ensures FormatInt(x) == FormatInt(y) <==> x == y
  {
    FormatIntRoundTrip(x);
    FormatIntRoundTrip(y);
  }

  lemma DigitCharValue(c: char)
    requires IsDigit(c)
    ensures DigitChar(DigitValue(c)) == c
  {
  }

  /** Digits that do not start with '0' denote a positive number. */
  lemma {:induction false} LeadingDigitPositive(s: string)
    requires 1 <= |s| && AllDigits(s) && s[0] != '0'
    ensures DigitsValue(s) >= 1
    decreases |s|
  {
    if |s| > 1 {
      LeadingDigitPositive(s[..|s| - 1]);
    }
  }

  /** The parser accepts only the text `FormatNat` prints: whatever it reads
      prints back to the same text. */
  lemma {:induction false} ParseNatCanonical(s: string)
    requires ParseNat(s).Some?
    ensures FormatNat(ParseNat(s).value) == s
    decreases |s|
  {
    var n := DigitsValue(s);
    var last := s[|s| - 1];
    DigitCharValue(last);
    if |s| == 1 {
      assert s[..|s| - 1] == [];
      assert n == DigitsValue([]) * 10 + DigitValue(last);
      assert s == [last];
    } else {
      var p := s[..|s| - 1];
      assert p[0] == s[0];
      LeadingDigitPositive(p);
      assert n == DigitsValue(p) * 10 + DigitValue(last);
      assert n / 10 == DigitsValue(p) && n % 10 == DigitValue(last);
      assert ParseNat(p) == Some(DigitsValue(p));
      ParseNatCanonical(p);
      assert s == p + [last];
    }
  }

  /** Every text `ParseInt` accepts is exactly the `%d` text of what it reads,
      so the parse-back contracts elsewhere fix the printed text. */
  lemma ParseIntCanonical(s: string)
    requires ParseInt(s).Some?
    ensures FormatInt(ParseInt(s).value) == s
  {
    if s[0] == '-' {
      ParseNatCanonical(s[1..]);
      assert s == "-" + s[1..];
    } else {
      ParseNatCanonical(s);
    }
  }
}

=== FILE: fileops.dfy ===
/** The entry record and the human-readable size formatter of package `fileops`. */
module FileOps {
  import opened Wrappers
  import opened Decimal

  /** Go's `int64`. */
  type int64 = x: int | -0x8000_0000_0000_0000 <= x <= 0x7FFF_FFFF_FFFF_FFFF

  /** The two kinds an entry can have; Go spells them as the strings "File" and "Dir". */
  datatype EntryType = File | Dir

  /** `string(t)`: the text the kind is displayed and serialised as. */
  function TypeName(t: EntryType): string {
    match t
    case File => "File"
    case Dir => "Dir"
  }

  /** Reads a kind back from its text. */
  function ParseType(s: string): (r: Option<EntryType>)
    ensures r.Some? <==> s == "File" || s == "Dir"
    ensures r.Some? ==> TypeName(r.value) == s
  {
    if s == "File" then Some(File) else if s == "Dir" then Some(Dir) else None
  }

  lemma TypeNameRoundTrip(t: EntryType)
    ensures ParseType(TypeName(t)) == Some(t)
  {
  }

  /** One listed directory member; `modified` is the already formatted time. */
  datatype FileEntry = FileEntry(name: string, etype: EntryType, lenBytes: int64, modified: string)

  /** The magnitude step: decimal, not binary. */
  const Unit: nat := 1000

  /** The letters for one to six magnitude steps. */
  const Suffixes: string := "kMGTPE"

  function Pow(e: nat): (p: nat)
    ensures p >= 1
  {
    if e == 0 then 1 else 1000 * Pow(e - 1)
  }

  lemma {:induction false} PowStrictlyIncreasing(i: nat, j: nat)
    requires i < j
    ensures Pow(i) < Pow(j)
    decreases j
  {
    if i < j - 1 {
      PowStrictlyIncreasing(i, j - 1);
    }
  }

  /** The number of magnitude steps the formatting loop takes beyond the first:
      the suffix index of `b`. */
  function Magnitude(b: int): (exp: nat)
    requires b >= Unit
    ensures Pow(exp + 1) <= b < Pow(exp + 2)
    decreases b
  {
    if b / 1000 < 1000 then 0 else 1 + Magnitude(b / 1000)
  }

  lemma PowOrderReflected(i: nat, j: nat)
    requires Pow(i) < Pow(j)
    ensures i < j
  {
    if j < i {
      PowStrictlyIncreasing(j, i);
    }
  }

  /** The bracket `Pow(e+1) <= b < Pow(e+2)` determines the suffix index. */
  lemma MagnitudeUnique(b: int, e: nat)
    requires Pow(e + 1) <= b < Pow(e + 2)
    ensures b >= Unit && Magnitude(b) == e
  {
    PowOrderReflected(1, e + 2);
    assert Pow(1) == 1000;
    if e > 0 {
      PowStrictlyIncreasing(1, e + 1);
    }
    var m := Magnitude(b);
    PowOrderReflected(m + 1, e + 2);
    PowOrderReflected(e + 1, m + 2);
  }

  /** The suffix index never decreases as the byte count grows. */
  lemma MagnitudeMonotonic(a: int, b: int)
    requires Unit <= a <= b
    ensures Magnitude(a) <= Magnitude(b)
  {
    PowOrderReflected(Magnitude(a) + 1, Magnitude(b) + 2);
  }

  /** Every `int64` at or above one thousand takes at most five extra steps, so
      indexing "kMGTPE" is always in bounds. */
  lemma MagnitudeAtMostFive(b: int64)
    requires b >= Unit
    ensures Magnitude(b) <= 5
  {
    assert Pow(7) == 1_000_000_000_000_000_000_000;
    PowOrderReflected(Magnitude(b) + 1, 7);
  }

  /** `t` is a nearest integer to `num / den`, ties resolved upwards. */
  predicate RoundsTo(t: int, num: int, den: int) {
    2 * t * den - den <= 2 * num < 2 * t * den + den
  }

  /** Adding half the (even) divisor before dividing rounds half-up. */
  lemma RoundHalfUp(num: int, half: int)
    requires half > 0
    ensures RoundsTo((num + half) / (2 * half), num, 2 * half)
    ensures num >= 0 ==> (num + half) / (2 * half) >= 0
  {
    var den := 2 * half;
    var q := (num + half) / den;
    var r := (num + half) % den;
    assert num + half == q * den + r && 0 <= r < den;
  }

  /** What the formatter shows: a plain integer below one thousand, otherwise a
      value in tenths of the unit `1000^(exp+1)` named by `Suffixes[exp]`. */
  datatype Human = Plain(value: int) | Scaled(tenths: nat, exp: nat)

  predicate WellFormed(h: Human) {
    h.Scaled? ==> h.exp < |Suffixes|
  }

  /** The magnitude selection and rounding of `HumanBytes`. */
  function Humanize(b: int64): (h: Human)
    ensures WellFormed(h)
    ensures h.Plain? <==> b < Unit
    ensures h.Plain? ==> h.value == b
    ensures h.Scaled? ==> Pow(h.exp + 1) <= b < Pow(h.exp + 2)
    ensures h.Scaled? ==> RoundsTo(h.tenths, 10 * b, Pow(h.exp + 1))
  {
    if b < Unit then Plain(b)
    else
      var exp := Magnitude(b);
      MagnitudeAtMostFive(b);
      Scaled(Tenths(b, exp), exp)
  }

  /** `b / 1000^(exp+1)` in tenths, rounded half-up. */
  function Tenths(b: nat, exp: nat): (t: nat)
    ensures RoundsTo(t, 10 * b, Pow(exp + 1))
  {
    var half := 500 * Pow(exp);
    RoundHalfUp(10 * b, half);
    (10 * b + half) / (2 * half)
  }

  /** `%.1f` of a non-negative value held in tenths, followed by the suffix letter. */
  function Render(h: Human): (s: string)
    requires WellFormed(h)
    ensures 1 <= |s|
    ensures h.Scaled? <==> s[|s| - 1] in Suffixes
  {
    match h
    case Plain(v) => FormatInt(v)
    case Scaled(t, e) => FormatNat(t / 10) + "." + [DigitChar(t % 10)] + [Suffixes[e]]
  }

  /** `HumanBytes`: below one thousand the plain `%d` text; otherwise digits, a
      point, exactly one fractional digit and one suffix letter. */
  function HumanBytes(b: int64): (s: string)
    ensures b < Unit ==> s == FormatInt(b)
    ensures b >= Unit ==> 4 <= |s| && AllDigits(s[..|s| - 3])
    ensures b >= Unit ==> s[|s| - 3] == '.' && IsDigit(s[|s| - 2]) && s[|s| - 1] in Suffixes
    ensures b >= Unit ==> s[0] != '0'
  {
    var h := Humanize(b);
    var s := Render(h);
    assert h.Scaled? ==> 4 <= |s| && s[..|s| - 3] == FormatNat(h.tenths / 10);
    if b >= Unit then LeadingDigit(b); s else s
  }

  /** `%.1f` of a value of at least one starts with a non-zero digit. */
  lemma LeadingDigit(b: int64)
    requires b >= Unit
    ensures Render(Humanize(b))[0] != '0'
  {
    ScaledIntegerPart(b);
    var w := FormatNat(Humanize(b).tenths / 10);
    assert Render(Humanize(b))[0] == w[0];
  }

  /** The formatting loop as written: divide the quotient by the unit until it
      drops below the unit, multiplying the divisor and counting steps. */
  method HumanBytesLoop(bytes: int64) returns (s: string)
    ensures s == HumanBytes(bytes)
  {
    if bytes < Unit {
      return FormatInt(bytes);
    }
    var div: int64, exp: nat := 1000, 0;
    var n := bytes / 1000;
    while n >= 1000
      invariant div == Pow(exp + 1)
      invariant 1 <= n && n * div <= bytes < (n + 1) * div
      decreases n
    {
      QuotientStep(bytes, n, div);
      div, exp, n := div * 1000, exp + 1, n / 1000;
    }
    LoopExit(bytes, exp, n, div);
    s := Render(Scaled((10 * bytes + div / 2) / div, exp));
  }

  /** When the loop stops, its step count is the magnitude and its divisor
      gives the tenths `Humanize` chooses. */
  lemma LoopExit(b: int64, exp: nat, n: int, div: int)
    requires b >= Unit && div == Pow(exp + 1)
    requires 1 <= n < 1000 && n * div <= b < (n + 1) * div
    ensures Humanize(b) == Scaled((10 * b + div / 2) / div, exp)
  {
    MulMonotonic(n + 1, 1000, div);
    MulMonotonic(1, n, div);
    assert Pow(exp + 2) == 1000 * div;
    MagnitudeUnique(b, exp);
    var half := 500 * Pow(exp);
    assert div == 2 * half && div / 2 == half;
  }

  /** One turn of the loop keeps the quotient bracket and the divisor within `int64`. */
  lemma QuotientStep(b: int, n: int, div: int)
    requires 1000 <= n && div >= 1 && n * div <= b < (n + 1) * div
    ensures var n', div' := n / 1000, div * 1000;
      1 <= n' && n' * div' <= b < (n' + 1) * div' && div' <= b
  {
    var n' := n / 1000;
    var r := n % 1000;
    assert n == 1000 * n' + r && 0 <= r < 1000;
    MulAssoc(n', 1000, div);
    MulMonotonic(1000 * n', n, div);
    MulAssoc(n' + 1, 1000, div);
    MulMonotonic(n + 1, 1000 * (n' + 1), div);
    MulMonotonic(1, n', div * 1000);
  }

  lemma MulAssoc(a: int, b: int, c: int)
    ensures a * (b * c) == (a * b) * c
  {
  }

  lemma MulMonotonic(a: int, b: int, c: int)
    requires a <= b && c >= 0
    ensures a * c <= b * c
  {
    assert b * c - a * c == (b - a) * c;
  }

  function SuffixIndex(c: char): (r: Option<nat>)
    ensures r.Some? ==> r.value < |Suffixes| && Suffixes[r.value] == c
  {
    if c == 'k' then Some(0)
    else if c == 'M' then Some(1)
    else if c == 'G' then Some(2)
    else if c == 'T' then Some(3)
    else if c == 'P' then Some(4)
    else if c == 'E' then Some(5)
    else None
  }

  /** Reads a size column back into what it displays. */
  function ParseHuman(s: string): (r: Option<Human>)
    ensures r.Some? ==> WellFormed(r.value)
  {
    if 4 <= |s| && s[|s| - 3] == '.' && IsDigit(s[|s| - 2]) && SuffixIndex(s[|s| - 1]).Some? then
      match ParseNat(s[..|s| - 3])
      case Some(w) => Some(Scaled(w * 10 + DigitValue(s[|s| - 2]), SuffixIndex(s[|s| - 1]).value))
      case None => None
    else
      match ParseInt(s)
      case Some(v) => Some(Plain(v))
      case None => None
  }

  lemma SuffixIndexOf(e: nat)
    requires e < |Suffixes|
    ensures SuffixIndex(Suffixes[e]) == Some(e)
  {
  }

  /** The size text determines what was displayed: reading it back gives the
      same plain value, or the same tenths and suffix. */
  lemma RenderRoundTrip(h: Human)
    requires WellFormed(h)
    ensures ParseHuman(Render(h)) == Some(h)
  {
    var s := Render(h);
    match h
    case Plain(v) =>
      FormatIntRoundTrip(v);
      assert s == FormatInt(v) && SuffixIndex(s[|s| - 1]).None?;
    case Scaled(t, e) =>
      var w := FormatNat(t / 10);
      assert s[..|s| - 3] == w;
      assert s[|s| - 2] == DigitChar(t % 10);
      assert s[|s| - 1] == Suffixes[e];
      FormatNatRoundTrip(t / 10);
      SuffixIndexOf(e);
  }

  /** The parser accepts only text `Render` prints: whatever it reads renders
      back to the same text. */
  lemma ParseHumanCanonical(s: string)
    requires ParseHuman(s).Some?
    ensures Render(ParseHuman(s).value) == s
  {
    if 4 <= |s| && s[|s| - 3] == '.' && IsDigit(s[|s| - 2]) && SuffixIndex(s[|s| - 1]).Some? {
      var digits := s[..|s| - 3];
      var w := ParseNat(digits).value;
      var d := DigitValue(s[|s| - 2]);
      ParseNatCanonical(digits);
      DigitCharValue(s[|s| - 2]);
      assert (w * 10 + d) / 10 == w && (w * 10 + d) % 10 == d;
      assert s == digits + "." + [s[|s| - 2]] + [s[|s| - 1]];
    } else {
      ParseIntCanonical(s);
    }
  }

  /** The size text is fixed by what it displays: the only text that reads
      back as `Humanize(b)` is `HumanBytes(b)`. */
  lemma HumanBytesExact(b: int64, s: string)
    requires ParseHuman(s) == Some(Humanize(b))
    ensures s == HumanBytes(b)
  {
    ParseHumanCanonical(s);
  }

  lemma HumanBytesRoundTrip(b: int64)
    ensures ParseHuman(HumanBytes(b)) == Some(Humanize(b))
  {
    RenderRoundTrip(Humanize(b));
  }

  /** Above one thousand the exact quotient `bytes / div` is in [1, 999] and the
      displayed integer part, after rounding to tenths, is in [1, 1000]. */
  lemma ScaledIntegerPart(b: int64)
    requires b >= Unit
    ensures var div := Pow(Magnitude(b) + 1); 1 <= b / div <= 999
    ensures 1 <= Humanize(b).tenths / 10 <= 1000
  {
    var e := Magnitude(b);
    var div := Pow(e + 1);
    assert Pow(e + 2) == 1000 * div;
    assert div >= 1000 by {
      if e > 0 { PowStrictlyIncreasing(1, e + 1); }
    }
    DivBracket(b, div, 1, 999);
    TenthsBracket(b, div, Humanize(b).tenths);
  }

  lemma TenthsBracket(b: int, div: int, t: int)
    requires 1000 <= div <= b < 1000 * div
    requires RoundsTo(t, 10 * b, div)
    ensures 10 <= t <= 10000
  {
    var m := t * div;
    assert 2 * m - div <= 20 * b < 2 * m + div;
    assert (2 * t + 1) * div == 2 * m + div;
    assert (2 * t - 1) * div == 2 * m - div;
    CancelLess(20, 2 * t + 1, div);
    CancelLess(2 * t - 1, 20000, div);
  }

  lemma DivBracket(b: int, d: int, lo: int, hi: int)
    requires d > 0 && lo * d <= b < (hi + 1) * d
    ensures lo <= b / d <= hi
  {
    var q := b / d;
    var r := b % d;
    assert b == q * d + r && 0 <= r < d;
    assert (q + 1) * d == q * d + d;
    CancelLess(q, hi + 1, d);
    CancelLess(lo, q + 1, d);
  }

  lemma CancelLess(a: int, b: int, c: int)
    requires c > 0 && a * c < b * c
    ensures a < b
  {
  }

  lemma HumanBytesSmallExamples()
    ensures HumanBytes(999) == "999"
    ensures HumanBytes(-5) == "-5"
  {
  }

  lemma HumanBytesKiloExamples()
    ensures HumanBytes(1000) == "1.0k"
    ensures HumanBytes(1500) == "1.5k"
  {
    assert Humanize(1000) == Scaled(10, 0);
    assert Humanize(1500) == Scaled(15, 0);
  }

  /** Rounding to tenths can carry the integer part up to one thousand. */
  lemma HumanBytesCarryExample()
    ensures HumanBytes(999_999) == "1000.0k"
    ensures HumanBytes(1_000_000) == "1.0M"
  {
    assert Humanize(999_999) == Scaled(10000, 0);
    assert FormatNat(1000) == "1000";
    assert Magnitude(1_000_000) == 1;
    assert Humanize(1_000_000) == Scaled(10, 1);
  }
}

=== FILE: filepath.dfy ===
/** The two string primitives the listing relies on from Go's standard library:
    `filepath.Ext` and `<` on strings. Names are sequences of code points, so
    `<` is modelled as code-point order, which agrees with Go's byte-wise
    order on valid UTF-8; names holding invalid UTF-8 are not represented. */
module FilePath {

  /** The path separator on the POSIX systems the tool targets. */
  const Separator: char := '/'

  /** `filepath.Ext`: the suffix of `path` starting at its last '.', provided no
      separator follows that dot; the empty string when there is no such dot. */
  function Ext(path: string): (e: string)
    ensures IsExtOf(e, path)
    decreases |path|
  {
    if |path| == 0 || path[|path| - 1] == Separator then ""
    else if path[|path| - 1] == '.' then "."
    else
      var e := Ext(path[..|path| - 1]);
      if e == "" then "" else e + [path[|path| - 1]]
  }

  /** The last dot of the final path component, or nothing when that
      component has no dot: the characterisation `Ext` meets. */
  predicate IsExtOf(e: string, path: string) {
    if e == "" then
      forall k :: 0 <= k < |path| && path[k] == '.' ==> Separator in path[k + 1..]
    else
      && e[0] == '.'
      && |e| <= |path| && path[|path| - |e|..] == e
      && forall k :: 1 <= k < |e| ==> e[k] != '.' && e[k] != Separator
  }

  /** Only one suffix meets the characterisation, so it defines `Ext` completely. */
  lemma ExtUnique(path: string, e: string)
    requires IsExtOf(e, path)
    ensures Ext(path) == e
  {
  }

  /** Go's `a < b` on strings, over code points: the first differing position
      decides, and a proper prefix orders before its extensions. */
  predicate Less(a: string, b: string)
    ensures Less(a, b) ==> |b| > 0
    ensures |a| < |b| && a == b[..|a|] ==> Less(a, b)
    decreases |a|
  {
    if |b| == 0 then false
    else if |a| == 0 then true
    else if a[0] != b[0] then a[0] < b[0]
    else Less(a[1..], b[1..])
  }

  lemma {:induction false} LessIrreflexive(a: string)
    ensures !Less(a, a)
    decreases |a|
  {
    if |a| > 0 {
      LessIrreflexive(a[1..]);
    }
  }

  lemma {:induction false} LessTransitive(a: string, b: string, c: string)
    requires Less(a, b) && Less(b, c)
    ensures Less(a, c)
    decreases |a|
  {
    if |a| > 0 && a[0] == b[0] && b[0] == c[0] {
      LessTransitive(a[1..], b[1..], c[1..]);
    }
  }

  /** Any two different strings are ordered one way or the other. */
  lemma {:induction false} LessTotal(a: string, b: string)
    ensures a == b || Less(a, b) || Less(b, a)
    decreases |a|
  {
    if |a| > 0 && |b| > 0 && a[0] == b[0] {
      LessTotal(a[1..], b[1..]);
      if a[1..] == b[1..] {
        assert a == [a[0]] + a[1..];
        assert b == [b[0]] + b[1..];
      }
    }
  }

  /** The order described directly: `a` is a proper prefix of `b`, or the two
      agree up to some position where `a` has the smaller character. */
  predicate DiffersBelow(a: string, b: string) {
    || (|a| < |b| && a == b[..|a|])
    || exists k :: 0 <= k < |a| && k < |b| && a[..k] == b[..k] && a[k] < b[k]
  }

  /** The recursive comparison is exactly that description. */
  lemma {:induction false} LessIffDiffersBelow(a: string, b: string)
    ensures Less(a, b) <==> DiffersBelow(a, b)
    decreases |a|
  {
    if |b| == 0 || |a| == 0 {
    } else if a[0] != b[0] {
      if a[0] < b[0] {
        assert a[..0] == b[..0];
      }
      forall k | 0 < k < |a| && k < |b|
        ensures a[..k] != b[..k]
      {
        assert a[..k][0] == a[0] && b[..k][0] == b[0];
      }
    } else {
      var a', b' := a[1..], b[1..];
      LessIffDiffersBelow(a', b');
      if DiffersBelow(a', b') {
        if |a'| < |b'| && a' == b'[..|a'|] {
          assert a == [a[0]] + a';
          assert b[..|a|] == [b[0]] + b'[..|a'|] by {
            assert b == [b[0]] + b';
          }
          assert a == b[..|a|];
        } else {
          var k :| 0 <= k < |a'| && k < |b'| && a'[..k] == b'[..k] && a'[k] < b'[k];
          assert a[..k + 1] == [a[0]] + a'[..k] && b[..k + 1] == [b[0]] + b'[..k];
          assert a[k + 1] == a'[k] && b[k + 1] == b'[k];
        }
      }
      if DiffersBelow(a, b) {
        if |a| < |b| && a == b[..|a|] {
          assert a' == b'[..|a'|];
        } else {
          var k :| 0 <= k < |a| && k < |b| && a[..k] == b[..k] && a[k] < b[k];
          assert k > 0;
          assert a'[..k - 1] == a[1..k] && b'[..k - 1] == b[1..k];
          assert a[1..k] == a[..k][1..] && b[1..k] == b[..k][1..];
          assert a'[k - 1] == a[k] && b'[k - 1] == b[k];
        }
      }
    }
  }
}

=== FILE: icons.dfy ===
/** Glyph selection of package `icons` (`NerdIconForFile`). The glyphs are
    private-use code points, so each is represented by the category its branch
    names. */
module Icons {
  import opened Wrappers
  import opened FilePath

  datatype Glyph =
    | GitDir | Folder
    | Make | Config | GitIgnore | Docker
    | Go | Rust | Python | Lua | C | CHeader | Cpp | JavaScript | TypeScript
    | React | Java | Kotlin | Ruby | Php | Html | Css | Scss | Json | Yaml
    | Shell | Markdown | Text | LegacyText
    | Generic

  /** The code point each branch returns. `LegacyText` is the text glyph of
      the older variant in main.go, a different code point from `Text`. */
  function CodePoint(g: Glyph): (cp: int)
    ensures 0xE000 <= cp < 0x10_0000
  {
    match g
    case GitDir => 0xE5FB
    case Folder => 0xE5FF
    case Make => 0xE779
    case Config => 0xE615
    case GitIgnore => 0xF1D3
    case Docker => 0xE7B0
    case Go => 0xE65E
    case Rust => 0xE7A8
    case Python => 0xE606
    case Lua => 0xE620
    case C => 0xE61E
    case CHeader => 0xF0FD
    case Cpp => 0xE61D
    case JavaScript => 0xE60C
    case TypeScript => 0xE628
    case React => 0xE7BA
    case Java => 0xE256
    case Kotlin => 0xE634
    case Ruby => 0xE791
    case Php => 0xE608
    case Html => 0xE60E
    case Css => 0xE614
    case Scss => 0xE603
    case Json => 0xE60B
    case Yaml => 0xE6A8
    case Shell => 0xE795
    case Markdown => 0xF00BA
    case Text => 0xF15C
    case LegacyText => 0xF49E
    case Generic => 0xF016
  }

  /** Reads a code point back as the category whose branch returns it. */
  function FromCodePoint(cp: int): Option<Glyph> {
    if cp == 0xE5FB then Some(GitDir)
    else if cp == 0xE5FF then Some(Folder)
    else if cp == 0xE779 then Some(Make)
    else if cp == 0xE615 then Some(Config)
    else if cp == 0xF1D3 then Some(GitIgnore)
    else if cp == 0xE7B0 then Some(Docker)
    else if cp == 0xE65E then Some(Go)
    else if cp == 0xE7A8 then Some(Rust)
    else if cp == 0xE606 then Some(Python)
    else if cp == 0xE620 then Some(Lua)
    else if cp == 0xE61E then Some(C)
    else if cp == 0xF0FD then Some(CHeader)
    else if cp == 0xE61D then Some(Cpp)
    else if cp == 0xE60C then Some(JavaScript)
    else if cp == 0xE628 then Some(TypeScript)
    else if cp == 0xE7BA then Some(React)
    else if cp == 0xE256 then Some(Java)
    else if cp == 0xE634 then Some(Kotlin)
    else if cp == 0xE791 then Some(Ruby)
    else if cp == 0xE608 then Some(Php)
    else if cp == 0xE60E then Some(Html)
    else if cp == 0xE614 then Some(Css)
    else if cp == 0xE603 then Some(Scss)
    else if cp == 0xE60B then Some(Json)
    else if cp == 0xE6A8 then Some(Yaml)
    else if cp == 0xE795 then Some(Shell)
    else if cp == 0xF00BA then Some(Markdown)
    else if cp == 0xF15C then Some(Text)
    else if cp == 0xF49E then Some(LegacyText)
    else if cp == 0xF016 then Some(Generic)
    else None
  }

  /** Distinct categories are distinct glyphs: the category is recoverable
      from the code point. */
  lemma CodePointRoundTrip(g: Glyph)
    ensures FromCodePoint(CodePoint(g)) == Some(g)
  {
  }

  /** A code point that reads as a category is that category's code point. */
  lemma FromCodePointInverse(cp: int)
    requires FromCodePoint(cp).Some?
    ensures CodePoint(FromCodePoint(cp).value) == cp
  {
  }

  /** The glyph as the character a table cell starts with. */
  function IconChar(g: Glyph): (c: char)
    ensures FromCodePoint(c as int) == Some(g)
  {
    CodePointRoundTrip(g);
    CodePoint(g) as char
  }

  lemma CodePointInjective(g: Glyph, h: Glyph)
    requires CodePoint(g) == CodePoint(h)
    ensures g == h
  {
    CodePointRoundTrip(g);
    CodePointRoundTrip(h);
  }

  /** The well-known file names recognised before any extension. */
  function ExactNameGlyph(name: string): (r: Option<Glyph>)
    ensures r.Some? <==> IsExactName(name)
    ensures r.Some? ==> r.value in {Make, Config, GitIgnore, Docker}
    ensures r == Some(Make) <==> name == "Makefile" || name == "makefile"
    ensures r == Some(Config) <==> name == "CMakeLists.txt"
    ensures r == Some(GitIgnore) <==> name == ".gitignore"
    ensures r == Some(Docker) <==> name == "Dockerfile"
  {
    if name == "Makefile" || name == "makefile" then Some(Make)
    else if name == "CMakeLists.txt" then Some(Config)
    else if name == ".gitignore" then Some(GitIgnore)
    else if name == "Dockerfile" then Some(Docker)
    else None
  }

  /** The extension switch; `Generic` is its default branch. */
  function ExtGlyph(ext: string): (g: Glyph)
    ensures g != GitDir && g != Folder && g != LegacyText && g !in {Make, Config, GitIgnore, Docker}
  {
    if ext == ".go" || ext == ".mod" || ext == ".sum" then Go
    else if ext == ".rs" then Rust
    else if ext == ".py" then Python
    else if ext == ".lua" then Lua
    else if ext == ".c" then C
    else if ext == ".h" || ext == ".hpp" then CHeader
    else if ext == ".cpp" || ext == ".cc" || ext == ".cxx" then Cpp
    else if ext == ".js" then JavaScript
    else if ext == ".ts" then TypeScript
    else if ext == ".jsx" || ext == ".tsx" then React
    else if ext == ".java" then Java
    else if ext == ".kt" || ext == ".kts" then Kotlin
    else if ext == ".rb" then Ruby
    else if ext == ".php" then Php
    else if ext == ".html" || ext == ".htm" then Html
    else if ext == ".css" then Css
    else if ext == ".scss" || ext == ".sass" then Scss
    else if ext == ".json" then Json
    else if ext == ".yaml" || ext == ".yml" then Yaml
    else if ext == ".sh" || ext == ".bash" then Shell
    else if ext == ".md" then Markdown
    else if ext == ".txt" then Text
    else Generic
  }

  /** `NerdIconForFile`: directories first, then exact names, then the extension. */
  function NerdIconForFile(name: string, isDir: bool): (g: Glyph)
    ensures isDir ==> (g == GitDir <==> name == ".git")
    ensures isDir <==> g == GitDir || g == Folder
    ensures !isDir && ExactNameGlyph(name).Some? ==> g == ExactNameGlyph(name).value
    ensures !isDir && ExactNameGlyph(name).None? ==> g == ExtGlyph(Ext(name))
  {
    if isDir then
      if name == ".git" then GitDir else Folder
    else
      match ExactNameGlyph(name)
      case Some(g) => g
      case None => ExtGlyph(Ext(name))
  }

  /** The names that have a case of their own in the exact-name switch. */
  predicate IsExactName(name: string) {
    name == "Makefile" || name == "makefile" || name == "CMakeLists.txt" || name == ".gitignore" || name == "Dockerfile"
  }

  /** The constants of each category's case in the extension switch. */
  predicate HasExtension(g: Glyph, ext: string) {
    match g
    case Go => ext == ".go" || ext == ".mod" || ext == ".sum"
    case Rust => ext == ".rs"
    case Python => ext == ".py"
    case Lua => ext == ".lua"
    case C => ext == ".c"
    case CHeader => ext == ".h" || ext == ".hpp"
    case Cpp => ext == ".cpp" || ext == ".cc" || ext == ".cxx"
    case JavaScript => ext == ".js"
    case TypeScript => ext == ".ts"
    case React => ext == ".jsx" || ext == ".tsx"
    case Java => ext == ".java"
    case Kotlin => ext == ".kt" || ext == ".kts"
    case Ruby => ext == ".rb"
    case Php => ext == ".php"
    case Html => ext == ".html" || ext == ".htm"
    case Css => ext == ".css"
    case Scss => ext == ".scss" || ext == ".sass"
    case Json => ext == ".json"
    case Yaml => ext == ".yaml" || ext == ".yml"
    case Shell => ext == ".sh" || ext == ".bash"
    case Markdown => ext == ".md"
    case Text => ext == ".txt"
    case _ => false
  }

  /** Every extension the switch has a case for. */
  predicate IsKnownExtension(ext: string) {
    || ext == ".go" || ext == ".mod" || ext == ".sum" || ext == ".rs" || ext == ".py"
    || ext == ".lua" || ext == ".c" || ext == ".h" || ext == ".hpp" || ext == ".cpp"
    || ext == ".cc" || ext == ".cxx" || ext == ".js" || ext == ".ts" || ext == ".jsx"
    || ext == ".tsx" || ext == ".java" || ext == ".kt" || ext == ".kts" || ext == ".rb"
    || ext == ".php" || ext == ".html" || ext == ".htm" || ext == ".css" || ext == ".scss"
    || ext == ".sass" || ext == ".json" || ext == ".yaml" || ext == ".yml" || ext == ".sh"
    || ext == ".bash" || ext == ".md" || ext == ".txt"
  }

  /** The switch falls through to the generic glyph exactly for the
      extensions it has no case for. */
  lemma GenericIffUnknown(ext: string)
    ensures ExtGlyph(ext) == Generic <==> !IsKnownExtension(ext)
  {
    if IsKnownExtension(ext) {
      KnownNotGeneric(ext);
    } else {
      UnknownIsGeneric(ext);
    }
  }

  lemma UnknownIsGeneric(ext: string)
    requires !IsKnownExtension(ext)
    ensures ExtGlyph(ext) == Generic
  {
  }

  lemma KnownNotGeneric(ext: string)
    requires IsKnownExtension(ext)
    ensures ExtGlyph(ext) != Generic
  {
  }

  /** Each category is chosen only for the extensions listed for it. */
  lemma ChosenHasExtension(ext: string)
    ensures ExtGlyph(ext) != Generic ==> HasExtension(ExtGlyph(ext), ext)
  {
  }

  /** No extension appears in two cases. */
  lemma CasesDisjoint(g: Glyph, h: Glyph, ext: string)
    requires HasExtension(g, ext) && HasExtension(h, ext)
    ensures g == h
  {
  }

  /** Each category is chosen for exactly the extensions of its case. */
  lemma ExtGlyphInverse(ext: string, g: Glyph)
    requires g != Generic
    ensures ExtGlyph(ext) == g <==> HasExtension(g, ext)
  {
    ChosenHasExtension(ext);
    if HasExtension(g, ext) {
      KnownNotGeneric(ext);
      CasesDisjoint(g, ExtGlyph(ext), ext);
    }
  }

  /** A file gets the generic glyph exactly when neither its name nor its
      extension has a case; a directory never does. */
  lemma GenericIffUnmatched(name: string, isDir: bool)
    ensures NerdIconForFile(name, isDir) == Generic
      <==> !isDir && !IsExactName(name) && !IsKnownExtension(Ext(name))
  {
    GenericIffUnknown(Ext(name));
  }

  /** A file without an exact-name case is judged by its extension alone. */
  lemma FileByExtension(name: string, e: string)
    requires IsExtOf(e, name) && !IsExactName(name)
    ensures NerdIconForFile(name, false) == ExtGlyph(e)
  {
    ExtUnique(name, e);
  }

  /** An exact-name case wins over the extension: "CMakeLists.txt" would be
      text by its extension but is shown as configuration. */
  lemma CMakeListsByExtension()
    ensures ExtGlyph(Ext("CMakeLists.txt")) == Text
  {
    ExtUnique("CMakeLists.txt", ".txt");
    TxtIsText();
  }

  lemma TxtIsText()
    ensures ExtGlyph(".txt") == Text
  {
    ExtGlyphInverse(".txt", Text);
  }

  lemma CMakeListsByName()
    ensures NerdIconForFile("CMakeLists.txt", false) == Config
  {
    assert ExactNameGlyph("CMakeLists.txt") == Some(Config);
  }

  /** Both spellings of the make file name have a case. */
  lemma MakefileExamples()
    ensures NerdIconForFile("Makefile", false) == Make
    ensures NerdIconForFile("makefile", false) == Make
  {
    assert ExactNameGlyph("Makefile") == Some(Make);
    assert ExactNameGlyph("makefile") == Some(Make);
  }

  /** Every extension with a case is a dot followed by lower-case letters. */
  lemma KnownExtensionShape(ext: string)
    requires IsKnownExtension(ext)
    ensures 2 <= |ext| && ext[0] == '.'
    ensures forall k :: 1 <= k < |ext| ==> 'a' <= ext[k] <= 'z'
  {
  }

  /** An extension that is not a dot followed by lower-case letters has no
      case; the empty extension of a dot-less name is one. */
  lemma NoExtensionIsGeneric()
    ensures ExtGlyph("") == Generic
  {
    if IsKnownExtension("") {
      KnownExtensionShape("");
    }
    UnknownIsGeneric("");
  }

  // The examples below take three steps each, every one in its own `by`
  // block: the extension of the literal name and the absence of a name case,
  // the glyph of that extension, then `FileByExtension` to combine them.
  // Kept apart, each step stays small for the solver.

  /** Names are matched case-sensitively: upper-case "MAKEFILE" has no case
      and, having no dot, no extension. */
  lemma UpperCaseMakefile()
    ensures NerdIconForFile("MAKEFILE", false) == Generic
  {
    assert Ext("MAKEFILE") == "" && !IsExactName("MAKEFILE") by {
      assert forall k :: 0 <= k < |"MAKEFILE"| ==> "MAKEFILE"[k] != '.';
      ExtUnique("MAKEFILE", "");
    }
    NoExtensionIsGeneric();
    FileByExtension("MAKEFILE", "");
  }

  /** Only the suffix from the last dot counts: "notes.go.md" is markdown. */
  lemma LastDotCounts()
    ensures NerdIconForFile("notes.go.md", false) == Markdown
  {
    NotesFacts();
    MdIsMarkdown();
    FileByExtension("notes.go.md", ".md");
  }

  // The first two steps of `LastDotCounts` as lemmas of their own: with two
  // dots in the name, the steps cost the solver too much in one proof.

  lemma NotesFacts()
    ensures Ext("notes.go.md") == ".md" && !IsExactName("notes.go.md")
  {
    ExtUnique("notes.go.md", ".md");
  }

  lemma MdIsMarkdown()
    ensures ExtGlyph(".md") == Markdown
  {
    ExtGlyphInverse(".md", Markdown);
  }

  lemma GoSumIsGo()
    ensures NerdIconForFile("go.sum", false) == Go
  {
    assert Ext("go.sum") == ".sum" && !IsExactName("go.sum") by {
      ExtUnique("go.sum", ".sum");
    }
    assert ExtGlyph(".sum") == Go by {
      ExtGlyphInverse(".sum", Go);
    }
    FileByExtension("go.sum", ".sum");
  }

  /** Extensions are matched case-sensitively. */
  lemma UpperCaseExtension()
    ensures NerdIconForFile("main.GO", false) == Generic
  {
    assert Ext("main.GO") == ".GO" && !IsExactName("main.GO") by {
      ExtUnique("main.GO", ".GO");
    }
    assert ExtGlyph(".GO") == Generic by {
      if IsKnownExtension(".GO") {
        KnownExtensionShape(".GO");
      }
      UnknownIsGeneric(".GO");
    }
    FileByExtension("main.GO", ".GO");
  }

  lemma LowerCaseExtension()
    ensures NerdIconForFile("main.go", false) == Go
  {
    assert Ext("main.go") == ".go" && !IsExactName("main.go") by {
      ExtUnique("main.go", ".go");
    }
    assert ExtGlyph(".go") == Go by {
      ExtGlyphInverse(".go", Go);
    }
    FileByExtension("main.go", ".go");
  }

  /** Directories are judged by name alone, never by extension. */
  lemma DirectoryExamples()
    ensures NerdIconForFile(".git", true) == GitDir
    ensures NerdIconForFile("src.go", true) == Folder
  {
  }
}

=== FILE: invocation.dfy ===
/** The checks both entry points run before listing (main.go and `Run` in
    cmd/ls.go): pick the path, resolve it to an absolute path, give up if it
    does not exist, then read the directory. The file system is an input:
    `Env` answers each call the program makes. */
module Invocation {
  import opened Wrappers
  import opened FileOps
  import opened Loader

  /** What `os.Stat` reports: success, a not-exist error, or any other error. */
  datatype StatResult = Exists | NotExist | StatError(err: string)

  /** The answers of `filepath.Abs`, `os.Stat` and `os.ReadDir` (with each
      entry's metadata) for every path. */
  datatype Env = Env(
    abs: string -> Result<string, string>,
    stat: string -> StatResult,
    readDir: string -> Result<seq<DirEntry>, string>)

  /** Why nothing was listed. Each stands for the red message the program
      prints before returning; the process still exits with status 0. */
  datatype Failure =
    | PathResolution(err: string)   // "Error resolving path: %v"
    | PathMissing                   // "Path does not exist!"
    | ReadDir(err: string)          // "Error reading directory: %v"

  /** The first positional argument, or the current directory. */
  function TargetPath(args: seq<string>): (p: string)
    ensures |args| > 0 ==> p == args[0]
    ensures |args| == 0 ==> p == "."
  {
    if |args| > 0 then args[0] else "."
  }

  /** The checks in order; on success, the resolved path and the entries. */
  function Preflight(args: seq<string>, env: Env): (r: Result<(string, seq<FileEntry>), Failure>)
    ensures r.Success? ==> env.abs(TargetPath(args)) == Success(r.value.0)
    ensures r.Success? ==> env.stat(r.value.0) != NotExist && env.readDir(r.value.0).Success?
    ensures r.Success? ==> |r.value.1| <= |env.readDir(r.value.0).value|
  {
    match env.abs(TargetPath(args))
    case Failure(e) => Failure(PathResolution(e))
    case Success(absPath) =>
      if env.stat(absPath) == NotExist then Failure(PathMissing)
      else match env.readDir(absPath)
        case Failure(e) => Failure(ReadDir(e))
        case Success(ds) => Success((absPath, Enrich(ds)))
  }

  /** The run proceeds exactly when the path resolves, is not reported
      missing, and its directory can be read; the listing is then the
      enrichment of what was read. */
  lemma PreflightSucceeds(args: seq<string>, env: Env)
    ensures var r := Preflight(args, env);
      r.Success? <==>
        && env.abs(TargetPath(args)).Success?
        && env.stat(env.abs(TargetPath(args)).value) != NotExist
        && env.readDir(env.abs(TargetPath(args)).value).Success?
    ensures var r := Preflight(args, env);
      r.Success? ==>
        && r.value.0 == env.abs(TargetPath(args)).value
        && r.value.1 == Enrich(env.readDir(r.value.0).value)
  {
  }

  /** Each failure names the first check that failed. */
  lemma PreflightFailures(args: seq<string>, env: Env)
    ensures var r := Preflight(args, env);
      r.Failure? && r.error.PathResolution? <==> env.abs(TargetPath(args)).Failure?
    ensures var r := Preflight(args, env);
      r.Failure? && r.error.PathMissing? <==>
        env.abs(TargetPath(args)).Success? && env.stat(env.abs(TargetPath(args)).value) == NotExist
  {
  }

  /** Only a not-exist error stops the run at the existence check: any other
      `os.Stat` error (a permission problem, say) falls through to the
      directory read. */
  lemma StatErrorFallsThrough(args: seq<string>, env: Env, absPath: string, e: string)
    requires env.abs(TargetPath(args)) == Success(absPath)
    requires env.stat(absPath) == StatError(e)
    ensures Preflight(args, env) == Preflight(args, env.(stat := _ => Exists))
  {
  }
}

=== FILE: legacy.dfy ===
/** The stand-alone entry point in main.go: the same checks as `Run`, then
    either the JSON of the listing or a table of raw byte counts, both in the
    order the directory was read. */
module Legacy {
  import opened Wrappers
  import opened Decimal
  import opened FileOps
  import opened Output
  import opened Invocation
  import opened Ls

  /** The four cells `printTable` builds for one entry: no glyph, and the
      size as a plain decimal byte count. */
  function RawRow(f: FileEntry): (r: seq<string>)
    ensures |r| == 4
    ensures r[0] == f.name
    ensures ParseType(r[1]) == Some(f.etype)
    ensures ParseInt(r[2]) == Some(f.lenBytes as int)
    ensures r[3] == f.modified
  {
    TypeNameRoundTrip(f.etype);
    FormatIntRoundTrip(f.lenBytes);
    [f.name, TypeName(f.etype), FormatInt(f.lenBytes), f.modified]
  }

  /** `RawRow`'s contract pins the cells down: the byte-count cell is the one
      text `%d` prints for the size. */
  lemma RawRowExact(f: FileEntry, r: seq<string>)
    requires |r| == 4 && r[0] == f.name && r[3] == f.modified
    requires ParseType(r[1]) == Some(f.etype)
    requires ParseInt(r[2]) == Some(f.lenBytes as int)
    ensures r == RawRow(f)
  {
    ParseIntCanonical(r[2]);
    assert r == [r[0], r[1], r[2], r[3]];
  }

  /** `printTable` of main.go: one row per entry in the order given, the same
      header, and a footer counting the entries. */
  function PrintTableRaw(files: seq<FileEntry>): (t: Table)
    ensures t.header == Header
    ensures |t.rows| == |files|
    ensures forall i :: 0 <= i < |files| ==> |t.rows[i]| == 4 && t.rows[i][0] == files[i].name
    ensures forall i :: 0 <= i < |files| ==> ParseType(t.rows[i][1]) == Some(files[i].etype)
    ensures forall i :: 0 <= i < |files| ==> ParseInt(t.rows[i][2]) == Some(files[i].lenBytes as int)
    ensures forall i :: 0 <= i < |files| ==> t.rows[i][3] == files[i].modified
    ensures |t.footer| == 4 && ParseInt(t.footer[2]) == Some(|files|)
    ensures t.footer[0] == "" && t.footer[1] == "Total Files" && t.footer[3] == ""
  {
    FormatIntRoundTrip(|files|);
    Table(Header, seq(|files|, i requires 0 <= i < |files| => RawRow(files[i])),
          ["", "Total Files", FormatInt(|files|), ""])
  }

  /** The two size columns agree below one thousand bytes and differ from
      there on: the raw count never holds a decimal point. */
  lemma RawAndHumanSizes(f: FileEntry)
    ensures f.lenBytes < Unit ==> RawRow(f)[2] == Row(f)[2]
    ensures f.lenBytes >= Unit ==> '.' in Row(f)[2] && '.' !in RawRow(f)[2]
  {
    var raw := FormatInt(f.lenBytes);
    assert f.lenBytes >= Unit ==> AllDigits(raw);
    var human := HumanBytes(f.lenBytes);
    assert f.lenBytes >= Unit ==> human[|human| - 3] == '.';
  }

  /** What the stand-alone program produces; `MainFailed` is a printed error
      message, after which `main` returns normally. */
  datatype MainOutcome =
    | MainFailed(failure: Failure)
    | MainJson(files: seq<FileEntry>)
    | MainTable(table: Table)

  /** `main`: the `-json` switch selects JSON; otherwise the raw table. */
  function MainRun(json: bool, args: seq<string>, env: Env): (o: MainOutcome)
    ensures o.MainFailed? <==> Preflight(args, env).Failure?
    ensures Preflight(args, env).Success? && json ==> o == MainJson(Preflight(args, env).value.1)
    ensures Preflight(args, env).Success? && !json ==> o == MainTable(PrintTableRaw(Preflight(args, env).value.1))
  {
    match Preflight(args, env)
    case Failure(f) => MainFailed(f)
    case Success((_, files)) =>
      if json then MainJson(files) else MainTable(PrintTableRaw(files))
  }

  /** Neither output of the stand-alone program is sorted: row `i` of the
      table, like element `i` of the JSON, is entry `i` as read. */
  lemma MainKeepsReadOrder(json: bool, args: seq<string>, env: Env)
    requires Preflight(args, env).Success?
    ensures var files := Preflight(args, env).value.1;
      match MainRun(json, args, env)
      case MainJson(js) => json && js == files
      case MainTable(t) => !json && |t.rows| == |files| &&
        forall i :: 0 <= i < |files| ==> t.rows[i][0] == files[i].name
      case MainFailed(_) => false
  {
  }

  /** With JSON selected the two entry points print the same listing. */
  lemma JsonOutputsAgree(flags: Flags, args: seq<string>, env: Env)
    requires flags.json
    ensures Run(flags, args, env).JsonOut? <==> MainRun(true, args, env).MainJson?
    ensures Run(flags, args, env).JsonOut? ==> Run(flags, args, env).files == MainRun(true, args, env).files
  {
  }
}

=== FILE: legacy_icons.dfy ===
/** The two older glyph functions of main.go: `nerdIconForFile`, a smaller
    cascade over the same glyph categories, and `iconForFile`, which picks an
    emoji by extension alone. */
module LegacyIcons {
  import opened Wrappers
  import opened FilePath
  import opened Icons

  /** The exact-name switch of the older cascade: no Dockerfile case. */
  function LegacyExactNameGlyph(name: string): (r: Option<Glyph>)
    ensures r.Some? <==> IsLegacyExactName(name)
    ensures r.Some? ==> r.value in {Make, Config, GitIgnore}
    ensures r == Some(Make) <==> name == "Makefile" || name == "makefile"
    ensures r == Some(Config) <==> name == "CMakeLists.txt"
    ensures r == Some(GitIgnore) <==> name == ".gitignore"
  {
    if name == "Makefile" || name == "makefile" then Some(Make)
    else if name == "CMakeLists.txt" then Some(Config)
    else if name == ".gitignore" then Some(GitIgnore)
    else None
  }

  predicate IsLegacyExactName(name: string) {
    name == "Makefile" || name == "makefile" || name == "CMakeLists.txt" || name == ".gitignore"
  }

  /** The extension switch of the older cascade; text files get a glyph of
      their own. */
  function LegacyExtGlyph(ext: string): (g: Glyph)
    ensures g in {Go, Rust, Python, C, CHeader, Cpp, Markdown, LegacyText, Generic}
    ensures g == LegacyText <==> ext == ".txt"
  {
    if ext == ".go" || ext == ".mod" || ext == ".sum" then Go
    else if ext == ".rs" then Rust
    else if ext == ".py" then Python
    else if ext == ".c" then C
    else if ext == ".h" || ext == ".hpp" then CHeader
    else if ext == ".cpp" || ext == ".cc" || ext == ".cxx" then Cpp
    else if ext == ".md" then Markdown
    else if ext == ".txt" then LegacyText
    else Generic
  }

  /** `nerdIconForFile` of main.go. */
  function LegacyNerdIconForFile(name: string, isDir: bool): (g: Glyph)
    ensures isDir ==> (g == GitDir <==> name == ".git")
    ensures isDir <==> g == GitDir || g == Folder
    ensures !isDir && LegacyExactNameGlyph(name).Some? ==> g == LegacyExactNameGlyph(name).value
    ensures !isDir && LegacyExactNameGlyph(name).None? ==> g == LegacyExtGlyph(Ext(name))
  {
    if isDir then
      if name == ".git" then GitDir else Folder
    else
      match LegacyExactNameGlyph(name)
      case Some(g) => g
      case None => LegacyExtGlyph(Ext(name))
  }

  /** Every extension the older switch has a case for. */
  predicate IsLegacyKnownExtension(ext: string) {
    || ext == ".go" || ext == ".mod" || ext == ".sum" || ext == ".rs" || ext == ".py"
    || ext == ".c" || ext == ".h" || ext == ".hpp" || ext == ".cpp" || ext == ".cc"
    || ext == ".cxx" || ext == ".md" || ext == ".txt"
  }

  /** The older switch falls through exactly for the extensions it lacks. */
  lemma LegacyGenericIffUnknown(ext: string)
    ensures LegacyExtGlyph(ext) == Generic <==> !IsLegacyKnownExtension(ext)
  {
  }

  /** Every extension the older switch knows, the newer one knows too. */
  lemma LegacyKnownIsKnown(ext: string)
    requires IsLegacyKnownExtension(ext)
    ensures IsKnownExtension(ext)
  {
  }

  /** The newer extension switch extends the older one. */
  lemma LegacyExtAgrees(e: string)
    ensures var g := LegacyExtGlyph(e);
      g != Generic && g != LegacyText ==> ExtGlyph(e) == g
  {
    var g := LegacyExtGlyph(e);
    if g != Generic && g != LegacyText {
      assert HasExtension(g, e);
      ExtGlyphInverse(e, g);
    }
  }

  /** The exact names the older cascade knows get the same glyph from both. */
  lemma LegacyExactNamesAgree(name: string)
    requires IsLegacyExactName(name)
    ensures LegacyNerdIconForFile(name, false) == NerdIconForFile(name, false)
  {
  }

  /** Names without an exact case in either cascade go by extension in both. */
  lemma BothByExtension(name: string)
    requires !IsExactName(name)
    ensures LegacyNerdIconForFile(name, false) == LegacyExtGlyph(Ext(name))
    ensures NerdIconForFile(name, false) == ExtGlyph(Ext(name))
  {
  }

  /** The newer cascade extends the older one: wherever the older cascade
      picks a category other than the generic or its own text glyph, the
      newer cascade picks the same one. */
  lemma NewerExtendsLegacy(name: string, isDir: bool)
    ensures var g := LegacyNerdIconForFile(name, isDir);
      g != Generic && g != LegacyText ==> NerdIconForFile(name, isDir) == g
  {
    if isDir {
    } else if IsLegacyExactName(name) {
      LegacyExactNamesAgree(name);
    } else if name == "Dockerfile" {
      LegacyDockerfile();
    } else {
      BothByExtension(name);
      LegacyExtAgrees(Ext(name));
    }
  }

  /** Text files are where the two cascades differ in glyph though not in
      category. */
  lemma TextGlyphsDiffer(name: string)
    requires Ext(name) == ".txt" && !IsExactName(name)
    ensures LegacyNerdIconForFile(name, false) == LegacyText
    ensures NerdIconForFile(name, false) == Text
    ensures CodePoint(LegacyText) != CodePoint(Text)
  {
    BothByExtension(name);
    TxtIsText();
  }

  /** ".gitignore" gets the gitignore glyph from both cascades. */
  lemma GitIgnoreInBoth()
    ensures LegacyNerdIconForFile(".gitignore", false) == GitIgnore
    ensures NerdIconForFile(".gitignore", false) == GitIgnore
  {
  }

  /** The older cascade has no Dockerfile case: with no extension either, the
      name falls to the generic glyph, where the newer cascade has one. */
  lemma LegacyDockerfile()
    ensures LegacyNerdIconForFile("Dockerfile", false) == Generic
  {
    DockerfileFacts();
    assert LegacyExtGlyph("") == Generic;
  }

  lemma DockerfileFacts()
    ensures Ext("Dockerfile") == "" && !IsLegacyExactName("Dockerfile")
  {
    assert forall k :: 0 <= k < |"Dockerfile"| ==> "Dockerfile"[k] != '.';
    ExtUnique("Dockerfile", "");
  }

  lemma NewerDockerfile()
    ensures NerdIconForFile("Dockerfile", false) == Docker
  {
    assert ExactNameGlyph("Dockerfile") == Some(Docker);
  }

  /** The emoji `iconForFile` returns. */
  datatype Emoji =
    | FileFolder   // U+1F4C1
    | Wrench       // U+1F527
    | Memo         // U+1F4DD
    | Package      // U+1F4E6
    | FramedPicture  // U+1F5BC
    | MusicalNote  // U+1F3B5
    | ClapperBoard // U+1F3AC
    | CardFileBox  // U+1F5C3
    | PageFacingUp // U+1F4C4

  /** The extensions each emoji's case lists. */
  predicate EmojiHasExtension(e: Emoji, ext: string) {
    match e
    case Wrench => ext in [".go", ".rs", ".py", ".js", ".ts", ".cpp", ".c", ".h"]
    case Memo => ext in [".md", ".txt"]
    case Package => ext in [".zip", ".tar", ".gz", ".rar"]
    case FramedPicture => ext in [".png", ".jpg", ".jpeg", ".gif", ".svg"]
    case MusicalNote => ext in [".mp3", ".wav", ".flac"]
    case ClapperBoard => ext in [".mp4", ".mkv", ".webm"]
    case CardFileBox => ext in [".db", ".sqlite"]
    case _ => false
  }

  /** The extension switch of `iconForFile`; the page is its default. */
  function ExtEmoji(ext: string): (e: Emoji)
    ensures e != FileFolder
  {
    if ext == ".go" || ext == ".rs" || ext == ".py" || ext == ".js" || ext == ".ts"
      || ext == ".cpp" || ext == ".c" || ext == ".h" then Wrench
    else if ext == ".md" || ext == ".txt" then Memo
    else if ext == ".zip" || ext == ".tar" || ext == ".gz" || ext == ".rar" then Package
    else if ext == ".png" || ext == ".jpg" || ext == ".jpeg" || ext == ".gif" || ext == ".svg" then FramedPicture
    else if ext == ".mp3" || ext == ".wav" || ext == ".flac" then MusicalNote
    else if ext == ".mp4" || ext == ".mkv" || ext == ".webm" then ClapperBoard
    else if ext == ".db" || ext == ".sqlite" then CardFileBox
    else PageFacingUp
  }

  /** `iconForFile` of main.go: every directory gets the folder, and files are
      judged by their extension alone. */
  function IconForFile(name: string, isDir: bool): (e: Emoji)
    ensures e == FileFolder <==> isDir
    ensures !isDir ==> e == ExtEmoji(Ext(name))
  {
    if isDir then FileFolder else ExtEmoji(Ext(name))
  }

  /** Each emoji is chosen only for the extensions its case lists. */
  lemma EmojiChosenHasExtension(ext: string)
    ensures ExtEmoji(ext) != PageFacingUp ==> EmojiHasExtension(ExtEmoji(ext), ext)
  {
  }

  /** No extension is listed by two cases. */
  lemma EmojiCasesDisjoint(e: Emoji, f: Emoji, ext: string)
    requires EmojiHasExtension(e, ext) && EmojiHasExtension(f, ext)
    ensures e == f
  {
  }

  /** Each emoji but the folder and the page is chosen for exactly the
      extensions of its case. */
  lemma ExtEmojiInverse(ext: string, e: Emoji)
    requires e != FileFolder && e != PageFacingUp
    ensures ExtEmoji(ext) == e <==> EmojiHasExtension(e, ext)
  {
    EmojiChosenHasExtension(ext);
    if EmojiHasExtension(e, ext) && ExtEmoji(ext) != e {
      if ExtEmoji(ext) != PageFacingUp {
        EmojiCasesDisjoint(e, ExtEmoji(ext), ext);
      }
    }
  }

  /** The page is the fall-through for every extension without a case. */
  lemma PageIffUnlisted(ext: string)
    ensures ExtEmoji(ext) == PageFacingUp <==> forall e: Emoji :: !EmojiHasExtension(e, ext)
  {
    if ExtEmoji(ext) != PageFacingUp {
      ExtEmojiInverse(ext, ExtEmoji(ext));
    }
  }

  /** A file gets a case emoji exactly when its extension is listed by that
      case: source extensions the wrench, ".md" and ".txt" the memo, and so on. */
  lemma IconForFileByCase(name: string, e: Emoji)
    requires e != FileFolder && e != PageFacingUp
    ensures IconForFile(name, false) == e <==> EmojiHasExtension(e, Ext(name))
  {
    ExtEmojiInverse(Ext(name), e);
  }

  /** "main.go" gets the wrench and "notes.txt" the memo. */
  lemma SourceAndTextExamples()
    ensures IconForFile("main.go", false) == Wrench
    ensures IconForFile("notes.txt", false) == Memo
  {
    ExtUnique("main.go", ".go");
    ExtUnique("notes.txt", ".txt");
  }

  /** No file names are special: two files with the same extension get the
      same emoji, unlike the exact-name cases of the glyph cascades. */
  lemma EmojiByExtensionOnly(a: string, b: string)
    requires Ext(a) == Ext(b)
    ensures IconForFile(a, false) == IconForFile(b, false)
  {
  }

  /** "Makefile" has no dot, hence no extension, and gets the page. */
  lemma MakefileIsPage()
    ensures IconForFile("Makefile", false) == PageFacingUp
  {
    assert forall k :: 0 <= k < |"Makefile"| ==> "Makefile"[k] != '.';
    ExtUnique("Makefile", "");
  }

  lemma NotesAreMemo()
    ensures IconForFile("notes.md", false) == Memo
  {
    ExtUnique("notes.md", ".md");
  }
}

=== FILE: loader.dfy ===
/** The enrichment loop of `getFiles` in main.go: each directory entry whose
    metadata can be read becomes a `FileEntry`, in directory order; entries
    whose metadata fails are skipped without an error. The directory read,
    the metadata calls and the date formatting are inputs. */
module Loader {
  import opened Wrappers
  import opened FileOps

  /** What `entry.Info()` yields when it succeeds: the size and the
      modification time already formatted as "Mon Jan 2 2006". */
  datatype Info = Info(size: int64, modified: string)

  /** One result of `os.ReadDir`: its name, whether it is a directory, and the
      outcome of asking for its metadata (`None` when `Info()` fails). */
  datatype DirEntry = DirEntry(name: string, isDir: bool, info: Option<Info>)

  /** The record built for an entry whose metadata was read. */
  function EntryOf(d: DirEntry, info: Info): (f: FileEntry)
    ensures f.etype == Dir <==> d.isDir
    ensures f.name == d.name && f.lenBytes == info.size && f.modified == info.modified
  {
    FileEntry(d.name, if d.isDir then Dir else File, info.size, info.modified)
  }

  /** The entries `getFiles` keeps, converted, in their original order. */
  function Enrich(ds: seq<DirEntry>): (r: seq<FileEntry>)
    ensures |r| <= |ds|
    ensures |r| == |ds| <==> forall i :: 0 <= i < |ds| ==> ds[i].info.Some?
  {
    if ds == [] then []
    else
      var rest := Enrich(ds[1..]);
      match ds[0].info
      case Some(info) => [EntryOf(ds[0], info)] + rest
      case None => rest
  }

  /** The entries whose metadata can be read, as an independent definition. */
  function Readable(ds: seq<DirEntry>): seq<DirEntry> {
    if ds == [] then []
    else if ds[0].info.Some? then [ds[0]] + Readable(ds[1..])
    else Readable(ds[1..])
  }

  lemma {:induction false} EnrichAppend(a: seq<DirEntry>, b: seq<DirEntry>)
    ensures Enrich(a + b) == Enrich(a) + Enrich(b)
  {
    if a == [] {
      assert a + b == b;
    } else {
      assert (a + b)[1..] == a[1..] + b;
      EnrichAppend(a[1..], b);
    }
  }

  /** Exactly the readable entries survive, each converted in place: the
      result lines up index by index with `Readable(ds)`. */
  lemma {:induction false} EnrichKeepsReadable(ds: seq<DirEntry>)
    ensures |Enrich(ds)| == |Readable(ds)|
    ensures forall i :: 0 <= i < |Readable(ds)| ==>
      Readable(ds)[i].info.Some? && Enrich(ds)[i] == EntryOf(Readable(ds)[i], Readable(ds)[i].info.value)
  {
    if ds != [] {
      EnrichKeepsReadable(ds[1..]);
    }
  }

  /** Nothing is invented: the survivors are drawn from the input, and they
      are exactly the entries whose metadata can be read. */
  lemma {:induction false} ReadableIsFilter(ds: seq<DirEntry>)
    ensures |Readable(ds)| <= |ds|
    ensures multiset(Readable(ds)) <= multiset(ds)
    ensures forall d :: d in ds && d.info.Some? <==> d in Readable(ds)
  {
    if ds != [] {
      ReadableIsFilter(ds[1..]);
      assert ds == [ds[0]] + ds[1..];
    }
  }

  /** When every metadata call fails the listing has no entries. (In Go it
      is then a nil slice, which JSON output prints as `null`; the model does
      not tell nil from empty.) */
  lemma {:induction false} AllFailedIsEmpty(ds: seq<DirEntry>)
    requires forall i :: 0 <= i < |ds| ==> ds[i].info.None?
    ensures Enrich(ds) == []
  {
    if ds != [] {
      AllFailedIsEmpty(ds[1..]);
    }
  }

  /** When every metadata call succeeds each entry maps to its record. */
  lemma {:induction false} AllReadableMapsEach(ds: seq<DirEntry>)
    requires forall i :: 0 <= i < |ds| ==> ds[i].info.Some?
    ensures |Enrich(ds)| == |ds|
    ensures forall i :: 0 <= i < |ds| ==> Enrich(ds)[i] == EntryOf(ds[i], ds[i].info.value)
  {
    if ds != [] {
      AllReadableMapsEach(ds[1..]);
    }
  }

  /** `getFiles`: a failed directory read is returned as the error; otherwise
      the loop appends one record per entry whose metadata can be read. */
  method GetFiles(listing: Result<seq<DirEntry>, string>) returns (r: Result<seq<FileEntry>, string>)
    ensures listing.Failure? ==> r == Failure(listing.error)
    ensures listing.Success? ==> r == Success(Enrich(listing.value))
  {
    if listing.Failure? {
      return Failure(listing.error);
    }
    var entries := listing.value;
    var data: seq<FileEntry> := [];
    var i := 0;
    while i < |entries|
      invariant 0 <= i <= |entries|
      invariant data == Enrich(entries[..i])
    {
      EnrichAppend(entries[..i], [entries[i]]);
      assert entries[..i + 1] == entries[..i] + [entries[i]];
      match entries[i].info {
        case None =>
        case Some(info) =>
          data := data + [EntryOf(entries[i], info)];
      }
      i := i + 1;
    }
    assert entries[..i] == entries;
    return Success(data);
  }
}

=== FILE: ls.dfy ===
/** `Run` of cmd/ls.go: after the shared checks, either the entries are
    marshalled as JSON in the order they were read, or they are sorted
    directories-first and by name and handed to the table printer. */
module Ls {
  import opened Wrappers
  import opened FileOps
  import opened FilePath
  import opened Output
  import opened Invocation

  /** The five command-line switches of the root command. */
  datatype Flags = Flags(oneLine: bool, longList: bool, allFiles: bool, json: bool, table: bool)

  /** The comparator handed to `sort.Slice`. */
  function Before(a: FileEntry, b: FileEntry): (r: bool)
    ensures r ==> a.etype == Dir || b.etype != Dir
    ensures a.etype == Dir && b.etype == File ==> r
    ensures a.etype == b.etype ==> (r <==> Less(a.name, b.name))
  {
    if a.etype == Dir && b.etype != Dir then true
    else if a.etype != Dir && b.etype == Dir then false
    else Less(a.name, b.name)
  }

  /** The comparator as a key order: kind first (directories lowest), then
      name. */
  lemma BeforeIsKeyOrder(a: FileEntry, b: FileEntry)
    ensures a.etype == Dir && b.etype == File ==> Before(a, b)
    ensures a.etype == File && b.etype == Dir ==> !Before(a, b)
    ensures a.etype == b.etype ==> (Before(a, b) <==> Less(a.name, b.name))
  {
  }

  lemma BeforeIrreflexive(a: FileEntry)
    ensures !Before(a, a)
  {
    LessIrreflexive(a.name);
  }

  lemma BeforeTransitive(a: FileEntry, b: FileEntry, c: FileEntry)
    requires Before(a, b) && Before(b, c)
    ensures Before(a, c)
  {
    if a.etype == b.etype && b.etype == c.etype {
      LessTransitive(a.name, b.name, c.name);
    }
  }

  lemma BeforeAsymmetric(a: FileEntry, b: FileEntry)
    requires Before(a, b)
    ensures !Before(b, a)
  {
    if Before(b, a) {
      BeforeTransitive(a, b, a);
      BeforeIrreflexive(a);
    }
  }

  /** Two entries the comparator cannot tell apart have the same kind and the
      same name. */
  lemma Incomparable(a: FileEntry, b: FileEntry)
    ensures !Before(a, b) && !Before(b, a) <==> a.etype == b.etype && a.name == b.name
  {
    LessTotal(a.name, b.name);
    LessIrreflexive(a.name);
  }

  /** Whatever lies between two ordered entries is after the first or before
      the last. */
  lemma BeforeSplits(a: FileEntry, b: FileEntry, c: FileEntry)
    requires Before(a, c)
    ensures Before(a, b) || Before(b, c)
  {
    if a.etype == b.etype && b.etype == c.etype {
      LessTotal(a.name, b.name);
      if Less(b.name, a.name) {
        LessTransitive(b.name, a.name, c.name);
      }
    }
  }

  /** Not-before is transitive, so the comparator is a strict weak order, as
      `sort.Slice` requires. */
  lemma NotBeforeTransitive(a: FileEntry, b: FileEntry, c: FileEntry)
    requires !Before(a, b) && !Before(b, c)
    ensures !Before(a, c)
  {
    if Before(a, c) {
      BeforeSplits(a, b, c);
    }
  }

  /** No entry is out of order with a later one. */
  predicate Sorted(s: seq<FileEntry>) {
    forall i, j :: 0 <= i < j < |s| ==> !Before(s[j], s[i])
  }

  /** What `sort.Slice` promises: a sorted rearrangement of its input. */
  predicate IsSortOf(r: seq<FileEntry>, s: seq<FileEntry>) {
    multiset(r) == multiset(s) && Sorted(r)
  }

  /** No entry of `s` is before `a`. */
  predicate NoneBefore(s: seq<FileEntry>, a: FileEntry) {
    forall k :: 0 <= k < |s| ==> !Before(s[k], a)
  }

  lemma NoneBeforeRearranged(r: seq<FileEntry>, s: seq<FileEntry>, x: FileEntry, a: FileEntry)
    requires multiset(r) == multiset(s) + multiset{x}
    requires NoneBefore(s, a) && !Before(x, a)
    ensures NoneBefore(r, a)
  {
    forall k | 0 <= k < |r|
      ensures !Before(r[k], a)
    {
      assert r[k] in multiset(r);
      if r[k] != x {
        assert r[k] in multiset(s);
        var j :| 0 <= j < |s| && s[j] == r[k];
      }
    }
  }

  /** An entry no later entry is before can head a sorted listing. */
  lemma SortedCons(a: FileEntry, t: seq<FileEntry>)
    requires Sorted(t) && NoneBefore(t, a)
    ensures Sorted([a] + t)
  {
    forall i, j | 0 <= i < j < |[a] + t|
      ensures !Before(([a] + t)[j], ([a] + t)[i])
    {
      assert ([a] + t)[j] == t[j - 1];
      if i > 0 {
        assert ([a] + t)[i] == t[i - 1];
      }
    }
  }

  /** The head of a sorted listing is not after any of its entries. */
  lemma HeadNoneBefore(s: seq<FileEntry>)
    requires Sorted(s) && s != []
    ensures NoneBefore(s[1..], s[0])
  {
    forall k | 0 <= k < |s[1..]|
      ensures !Before(s[1..][k], s[0])
    {
      assert s[1..][k] == s[k + 1];
    }
  }

  /** An entry the head of a sorted listing is not before can go in front. */
  lemma NoneBeforeInFront(s: seq<FileEntry>, x: FileEntry)
    requires Sorted(s) && s != [] && !Before(s[0], x)
    ensures NoneBefore(s, x)
  {
    forall k | 0 <= k < |s|
      ensures !Before(s[k], x)
    {
      if k > 0 {
        NotBeforeTransitive(s[k], s[0], x);
      }
    }
  }

  /** Inserts `x` before the first entry that is not before it. */
  function Insert(x: FileEntry, s: seq<FileEntry>): (r: seq<FileEntry>)
    requires Sorted(s)
    ensures multiset(r) == multiset(s) + multiset{x}
    ensures Sorted(r)
  {
    if s == [] then [x]
    else if Before(s[0], x) then
      SortedTail(s);
      var t := Insert(x, s[1..]);
      assert s == [s[0]] + s[1..];
      BeforeAsymmetric(s[0], x);
      HeadNoneBefore(s);
      NoneBeforeRearranged(t, s[1..], x, s[0]);
      SortedCons(s[0], t);
      [s[0]] + t
    else
      NoneBeforeInFront(s, x);
      SortedCons(x, s);
      [x] + s
  }

  /** A reference sort: insertion of each entry into the sorted rest. */
  function SortEntries(s: seq<FileEntry>): (r: seq<FileEntry>)
    ensures IsSortOf(r, s)
  {
    if s == [] then []
    else
      assert s == [s[0]] + s[1..];
      Insert(s[0], SortEntries(s[1..]))
  }

  /** In a sorted listing every directory comes before every file. */
  lemma SortedDirsFirst(s: seq<FileEntry>, i: int, j: int)
    requires Sorted(s) && 0 <= i < j < |s|
    requires s[j].etype == Dir
    ensures s[i].etype == Dir
  {
  }

  /** Within each kind a sorted listing ascends by name. */
  lemma SortedNamesAscend(s: seq<FileEntry>, i: int, j: int)
    requires Sorted(s) && 0 <= i < j < |s|
    requires s[i].etype == s[j].etype
    ensures s[i].name == s[j].name || Less(s[i].name, s[j].name)
  {
    LessTotal(s[i].name, s[j].name);
  }

  /** A directory never holds two entries of the same name. */
  predicate UniqueNames(m: multiset<FileEntry>) {
    forall x, y :: x in m && y in m && x.name == y.name ==> x == y
  }

  lemma UniqueNamesShrink(m: multiset<FileEntry>, n: multiset<FileEntry>)
    requires n <= m && UniqueNames(m)
    ensures UniqueNames(n)
  {
  }

  lemma SortedTail(s: seq<FileEntry>)
    requires Sorted(s) && s != []
    ensures Sorted(s[1..])
  {
    forall i, j | 0 <= i < j < |s[1..]|
      ensures !Before(s[1..][j], s[1..][i])
    {
      assert s[1..][j] == s[j + 1] && s[1..][i] == s[i + 1];
    }
  }

  /** Two sorted arrangements of the same entries with unique names start
      with the same entry: each first entry is not after the other. */
  lemma SameFirst(r1: seq<FileEntry>, r2: seq<FileEntry>)
    requires Sorted(r1) && Sorted(r2) && multiset(r1) == multiset(r2)
    requires UniqueNames(multiset(r1)) && r1 != []
    ensures r2 != [] && r1[0] == r2[0]
  {
    var a := r1[0];
    assert a in multiset(r1);
    var k :| 0 <= k < |r2| && r2[k] == a;
    var b := r2[0];
    assert b in multiset(r2);
    var j :| 0 <= j < |r1| && r1[j] == b;
    assert !Before(b, a) by {
      if j > 0 {
        assert !Before(r1[j], r1[0]);
      } else {
        BeforeIrreflexive(a);
      }
    }
    assert !Before(a, b) by {
      if k > 0 {
        assert !Before(r2[k], r2[0]);
      } else {
        BeforeIrreflexive(a);
      }
    }
    Incomparable(a, b);
  }

  lemma SameTails(r1: seq<FileEntry>, r2: seq<FileEntry>)
    requires r1 != [] && r2 != [] && r1[0] == r2[0] && multiset(r1) == multiset(r2)
    ensures multiset(r1[1..]) == multiset(r2[1..]) && multiset(r1[1..]) <= multiset(r1)
  {
    assert r1 == [r1[0]] + r1[1..] && r2 == [r2[0]] + r2[1..];
    assert multiset(r1) == multiset{r1[0]} + multiset(r1[1..]);
    assert multiset(r2) == multiset{r2[0]} + multiset(r2[1..]);
    assert multiset(r1[1..]) == multiset(r1) - multiset{r1[0]};
    assert multiset(r2[1..]) == multiset(r2) - multiset{r2[0]};
  }

  /** With unique names there is only one sorted order, so whichever
      arrangement `sort.Slice` picks is the reference one. */
  lemma {:induction false} SortedUnique(r1: seq<FileEntry>, r2: seq<FileEntry>)
    requires Sorted(r1) && Sorted(r2) && multiset(r1) == multiset(r2)
    requires UniqueNames(multiset(r1))
    ensures r1 == r2
    decreases |r1|
  {
    if r1 == [] {
      assert |r2| == |multiset(r2)|;
    } else {
      SameFirst(r1, r2);
      SameTails(r1, r2);
      UniqueNamesShrink(multiset(r1), multiset(r1[1..]));
      SortedTail(r1);
      SortedTail(r2);
      SortedUnique(r1[1..], r2[1..]);
    }
  }

  /** Any result `sort.Slice` may return equals the reference sort. */
  lemma SortSpecDeterminate(s: seq<FileEntry>, r: seq<FileEntry>)
    requires IsSortOf(r, s) && UniqueNames(multiset(s))
    ensures r == SortEntries(s)
  {
    SortedUnique(r, SortEntries(s));
  }

  /** Sorting a sorted listing leaves it as it is. */
  lemma {:induction false} SortIdempotent(s: seq<FileEntry>)
    requires Sorted(s)
    ensures SortEntries(s) == s
  {
    if s != [] {
      SortedTail(s);
      SortIdempotent(s[1..]);
      HeadNoneBefore(s);
      InsertInFront(s[0], s[1..]);
      assert s == [s[0]] + s[1..];
    }
  }

  /** An entry that belongs in front is inserted in front. */
  lemma InsertInFront(x: FileEntry, s: seq<FileEntry>)
    requires Sorted(s) && NoneBefore(s, x)
    ensures Insert(x, s) == [x] + s
  {
  }

  lemma SortTwice(s: seq<FileEntry>)
    ensures SortEntries(SortEntries(s)) == SortEntries(s)
  {
    SortIdempotent(SortEntries(s));
  }

  /** What the command produces: a printed error message (the exit status
      stays 0), the JSON of the listing, a table, or nothing (the list format
      is not written yet). */
  datatype Outcome =
    | Failed(failure: Failure)
    | JsonOut(files: seq<FileEntry>)
    | TableOut(table: Table)
    | NoOutput

  /** `Run`. The positional arguments are those of the standard flag set,
      which `Run` reads instead of its own `args` parameter. */
  function Run(flags: Flags, args: seq<string>, env: Env): (o: Outcome)
    ensures o.Failed? <==> Preflight(args, env).Failure?
  {
    match Preflight(args, env)
    case Failure(f) => Failed(f)
    case Success((_, files)) =>
      if flags.json then JsonOut(files)
      else if flags.table then TableOut(PrintTable(SortEntries(files)))
      else NoOutput
  }

  /** JSON wins over the table and keeps the order the entries were read. */
  lemma JsonTakesPrecedence(flags: Flags, args: seq<string>, env: Env)
    requires flags.json && Preflight(args, env).Success?
    ensures Run(flags, args, env) == JsonOut(Preflight(args, env).value.1)
  {
  }

  /** Without JSON, the table flag prints the listing sorted. */
  lemma TableIsSorted(flags: Flags, args: seq<string>, env: Env)
    requires !flags.json && flags.table && Preflight(args, env).Success?
    ensures var o := Run(flags, args, env);
      o.TableOut? && exists r :: IsSortOf(r, Preflight(args, env).value.1) && o.table == PrintTable(r)
  {
    var files := Preflight(args, env).value.1;
    assert IsSortOf(SortEntries(files), files);
  }

  /** With neither JSON nor table selected nothing is printed. */
  lemma NeitherPrintsNothing(flags: Flags, args: seq<string>, env: Env)
    requires !flags.json && !flags.table && Preflight(args, env).Success?
    ensures Run(flags, args, env) == NoOutput
  {
  }

  /** The one-line, long and all switches are never acted on beyond the
      debug print at the start of `Run`: no hidden-file filter, no long or
      one-line format. */
  lemma UnusedFlagsIgnored(flags: Flags, args: seq<string>, env: Env, oneLine: bool, longList: bool, allFiles: bool)
    ensures Run(flags.(oneLine := oneLine, longList := longList, allFiles := allFiles), args, env)
      == Run(flags, args, env)
  {
  }
}

=== FILE: output.dfy ===
/** The pure parts of package `output`: the cells `PrintTable` hands to the
    table writer and the fields `PrintLong` prints for each entry. Colours,
    borders, padding and the writer itself are not modelled. */
module Output {
  import opened Wrappers
  import opened Decimal
  import opened FileOps
  import opened Icons
  import opened Permissions

  /** What the table writer receives: a header, one row per entry, a footer. */
  datatype Table = Table(header: seq<string>, rows: seq<seq<string>>, footer: seq<string>)

  const Header: seq<string> := ["Name", "Type", "Bytes", "Modified"]

  /** The first cell of a row: the entry's glyph, a space, then its name. */
  function NameCell(f: FileEntry): (c: string)
    ensures ParseNameCell(c) == Some((NerdIconForFile(f.name, f.etype == Dir), f.name))
  {
    [IconChar(NerdIconForFile(f.name, f.etype == Dir))] + " " + f.name
  }

  /** Reads a name cell back as its glyph and name. */
  function ParseNameCell(c: string): Option<(Glyph, string)> {
    if |c| < 2 || c[1] != ' ' then None
    else match FromCodePoint(c[0] as int)
      case Some(g) => Some((g, c[2..]))
      case None => None
  }

  /** The four cells `PrintTable` builds for one entry. */
  function Row(f: FileEntry): (r: seq<string>)
    ensures |r| == 4
    ensures ParseNameCell(r[0]) == Some((NerdIconForFile(f.name, f.etype == Dir), f.name))
    ensures ParseType(r[1]) == Some(f.etype)
    ensures ParseHuman(r[2]) == Some(Humanize(f.lenBytes))
    ensures r[3] == f.modified
  {
    TypeNameRoundTrip(f.etype);
    HumanBytesRoundTrip(f.lenBytes);
    [NameCell(f), TypeName(f.etype), HumanBytes(f.lenBytes), f.modified]
  }

  /** The name cell is fixed by what it reads back as: the only cell that
      parses to an entry's glyph and name is `NameCell` of that entry. */
  lemma NameCellExact(f: FileEntry, c: string)
    requires ParseNameCell(c) == Some((NerdIconForFile(f.name, f.etype == Dir), f.name))
    ensures c == NameCell(f)
  {
    FromCodePointInverse(c[0] as int);
    assert c == [c[0]] + " " + c[2..];
  }

  /** `Row`'s contract pins the cells down completely: any four cells that
      read back as the entry's glyph, name, kind, displayed size and date are
      exactly the cells `PrintTable` builds for it. */
  lemma RowExact(f: FileEntry, r: seq<string>)
    requires |r| == 4
    requires ParseNameCell(r[0]) == Some((NerdIconForFile(f.name, f.etype == Dir), f.name))
    requires ParseType(r[1]) == Some(f.etype)
    requires ParseHuman(r[2]) == Some(Humanize(f.lenBytes))
    requires r[3] == f.modified
    ensures r == Row(f)
  {
    NameCellExact(f, r[0]);
    HumanBytesExact(f.lenBytes, r[2]);
    assert r == [r[0], r[1], r[2], r[3]];
  }

  /** `PrintTable`: one row per entry in the order given, and a footer whose
      third cell counts the entries. */
  function PrintTable(files: seq<FileEntry>): (t: Table)
    ensures t.header == Header
    ensures |t.rows| == |files|
    ensures forall i :: 0 <= i < |files| ==> |t.rows[i]| == 4
    ensures forall i :: 0 <= i < |files| ==>
      ParseNameCell(t.rows[i][0]) == Some((NerdIconForFile(files[i].name, files[i].etype == Dir), files[i].name))
    ensures forall i :: 0 <= i < |files| ==> ParseType(t.rows[i][1]) == Some(files[i].etype)
    ensures forall i :: 0 <= i < |files| ==> ParseHuman(t.rows[i][2]) == Some(Humanize(files[i].lenBytes))
    ensures forall i :: 0 <= i < |files| ==> t.rows[i][3] == files[i].modified
    ensures |t.footer| == 4 && ParseInt(t.footer[2]) == Some(|files|)
    ensures t.footer[0] == "" && t.footer[1] == "Total Files" && t.footer[3] == ""
  {
    FormatIntRoundTrip(|files|);
    Table(Header, seq(|files|, i requires 0 <= i < |files| => Row(files[i])),
          ["", "Total Files", FormatInt(|files|), ""])
  }

  /** The size column of the long format: a grey dash for directories. */
  datatype SizeCell = Dash | Size(text: string)

  /** One entry of the long format together with the fields the entry record
      of package `fileops` lacks and `PrintLong` reads. */
  datatype LongEntry = LongEntry(file: FileEntry, mode: FileMode, numLinks: int, owner: string, group: string)

  /** The fields of one printed line of the long format, in print order. */
  datatype LongLine = LongLine(
    perm: string, links: string, owner: string, group: string,
    size: SizeCell, modified: string, icon: Glyph, name: string)

  function LongLineOf(e: LongEntry): (l: LongLine)
    ensures Decode(l.perm) == Some(Canonical(e.mode))
    ensures ParseInt(l.links) == Some(e.numLinks)
    ensures l.size.Dash? <==> e.file.etype == Dir
    ensures l.size.Size? ==> ParseHuman(l.size.text) == Some(Humanize(e.file.lenBytes))
    ensures l.icon == NerdIconForFile(e.file.name, e.file.etype == Dir)
    ensures l.owner == e.owner && l.group == e.group
    ensures l.modified == e.file.modified && l.name == e.file.name
  {
    DecodeRoundTrip(e.mode);
    FormatIntRoundTrip(e.numLinks);
    HumanBytesRoundTrip(e.file.lenBytes);
    var size := if e.file.etype == Dir then Dash else Size(HumanBytes(e.file.lenBytes));
    LongLine(PermissionsString(e.mode), FormatInt(e.numLinks), e.owner, e.group,
             size, e.file.modified, NerdIconForFile(e.file.name, e.file.etype == Dir), e.file.name)
  }

  /** `LongLineOf`'s contract pins every field down: a line whose permission
      text decodes to the entry's mode, whose link and size texts read back as
      its link count and displayed size, and whose other fields match, is the
      line `PrintLong` prints. */
  lemma LongLineExact(e: LongEntry, l: LongLine)
    requires Decode(l.perm) == Some(Canonical(e.mode))
    requires ParseInt(l.links) == Some(e.numLinks)
    requires l.size.Dash? <==> e.file.etype == Dir
    requires l.size.Size? ==> ParseHuman(l.size.text) == Some(Humanize(e.file.lenBytes))
    requires l.icon == NerdIconForFile(e.file.name, e.file.etype == Dir)
    requires l.owner == e.owner && l.group == e.group
    requires l.modified == e.file.modified && l.name == e.file.name
    ensures l == LongLineOf(e)
  {
    EncodeRoundTrip(l.perm);
    CanonicalString(e.mode);
    ParseIntCanonical(l.links);
    if l.size.Size? {
      HumanBytesExact(e.file.lenBytes, l.size.text);
    }
  }

  /** `PrintLong`: one line per entry, in the order given. */
  function PrintLong(entries: seq<LongEntry>): (ls: seq<LongLine>)
    ensures |ls| == |entries|
    ensures forall i :: 0 <= i < |entries| ==> Decode(ls[i].perm) == Some(Canonical(entries[i].mode))
    ensures forall i :: 0 <= i < |entries| ==> (ls[i].size.Dash? <==> entries[i].file.etype == Dir)
    ensures forall i :: 0 <= i < |entries| ==> ls[i].name == entries[i].file.name
    ensures forall i :: 0 <= i < |entries| ==> ls[i] == LongLineOf(entries[i])
  {
    seq(|entries|, i requires 0 <= i < |entries| => LongLineOf(entries[i]))
  }
}

=== FILE: permissions.dfy ===
/** The symbolic permission column of the long listing (`permissionsString`):
    a type letter followed by read/write/execute for owner, group and other,
    the file-mode field of `ls -l` in POSIX.1-2017, restricted to the `d`, `l`
    and `-` types and without setuid, setgid or sticky letters. */
module Permissions {
  import opened Wrappers

  /** A mode word: the directory and symbolic-link type flags, and the
      remaining bits, of which the low nine are the permission bits (owner
      read = 0x100 = octal 0400 down to other execute = 0x1 = octal 0001). */
  datatype FileMode = FileMode(isDir: bool, isSymlink: bool, bits: bv32)

  /** The permission bit shown at position `i` (owner rwx, group rwx, other rwx). */
  function Mask(i: nat): bv32
    requires i < 9
  {
    if i == 0 then 0x100 else if i == 1 then 0x80 else if i == 2 then 0x40
    else if i == 3 then 0x20 else if i == 4 then 0x10 else if i == 5 then 0x8
    else if i == 6 then 0x4 else if i == 7 then 0x2 else 0x1
  }

  /** All nine permission bits, octal 0777. */
  const PermBits: bv32 := 0x1FF

  /** Position `i` shows the bit octal 0400 shifted right by `i`. */
  lemma MaskIsShift(i: nat)
    requires i < 9
    ensures Mask(i) == 0x100 >> i
  {
  }

  /** The letter position `i` shows when its bit is set. */
  function Letter(i: nat): char
    requires i < 9
  {
    if i % 3 == 0 then 'r' else if i % 3 == 1 then 'w' else 'x'
  }

  function TypeChar(m: FileMode): char {
    if m.isDir then 'd' else if m.isSymlink then 'l' else '-'
  }

  /** The character for permission position `i`. */
  function PermChar(bits: bv32, i: nat): char
    requires i < 9
  {
    if bits & Mask(i) != 0 then Letter(i) else '-'
  }

  /** `permissionsString`: ten characters, the type letter (directory wins over
      symbolic link) and then, for each of the nine permission bits in display
      order, its letter when set and a dash otherwise. */
  function PermissionsString(m: FileMode): (s: string)
    ensures |s| == 10
    ensures s[0] == 'd' <==> m.isDir
    ensures s[0] == 'l' <==> !m.isDir && m.isSymlink
    ensures s[0] == '-' <==> !m.isDir && !m.isSymlink
    ensures forall k :: 1 <= k < 10 ==> s[k] == PermChar(m.bits, k - 1)
  {
    [TypeChar(m)] + seq(9, i requires 0 <= i < 9 => PermChar(m.bits, i))
  }

  /** The part of a mode the permission string depends on: the type as the
      string shows it and the nine permission bits. */
  function Canonical(m: FileMode): FileMode {
    FileMode(m.isDir, !m.isDir && m.isSymlink, m.bits & PermBits)
  }

  /** A well-formed permission string: a type letter, then each position either
      its own letter or a dash. */
  predicate WellFormed(s: string) {
    && |s| == 10
    && (s[0] == 'd' || s[0] == 'l' || s[0] == '-')
    && forall k :: 1 <= k < 10 ==> s[k] == '-' || s[k] == Letter(k - 1)
  }

  function BitIf(c: char, mask: bv32): bv32 {
    if c == '-' then 0 else mask
  }

  /** The permission bits a ten-character string shows. */
  function DecodeBits(s: string): bv32
    requires |s| == 10
  {
    BitIf(s[1], 0x100) | BitIf(s[2], 0x80) | BitIf(s[3], 0x40)
      | BitIf(s[4], 0x20) | BitIf(s[5], 0x10) | BitIf(s[6], 0x8)
      | BitIf(s[7], 0x4) | BitIf(s[8], 0x2) | BitIf(s[9], 0x1)
  }

  /** Reads a permission string back into the canonical mode it shows. */
  function Decode(s: string): (r: Option<FileMode>)
    ensures r.Some? <==> WellFormed(s)
  {
    if WellFormed(s) then Some(FileMode(s[0] == 'd', s[0] == 'l', DecodeBits(s))) else None
  }

  function MaskIf(bits: bv32, mask: bv32): bv32 {
    if bits & mask != 0 then mask else 0
  }

  /** Collecting each permission bit that is set gives the nine low bits. */
  lemma CollectPermBits(b: bv32)
    ensures MaskIf(b, 0x100) | MaskIf(b, 0x80) | MaskIf(b, 0x40) | MaskIf(b, 0x20)
      | MaskIf(b, 0x10) | MaskIf(b, 0x8) | MaskIf(b, 0x4) | MaskIf(b, 0x2) | MaskIf(b, 0x1)
      == b & PermBits
  {
  }

  lemma BitIfPermChar(b: bv32, i: nat)
    requires i < 9
    ensures BitIf(PermChar(b, i), Mask(i)) == MaskIf(b, Mask(i))
  {
  }

  /** The permission string shows exactly the canonical part of the mode. */
  lemma DecodeRoundTrip(m: FileMode)
    ensures Decode(PermissionsString(m)) == Some(Canonical(m))
  {
    var s := PermissionsString(m);
    assert WellFormed(s);
    BitIfPermChar(m.bits, 0);
    BitIfPermChar(m.bits, 1);
    BitIfPermChar(m.bits, 2);
    BitIfPermChar(m.bits, 3);
    BitIfPermChar(m.bits, 4);
    BitIfPermChar(m.bits, 5);
    BitIfPermChar(m.bits, 6);
    BitIfPermChar(m.bits, 7);
    BitIfPermChar(m.bits, 8);
    assert s[1] == PermChar(m.bits, 0) && s[2] == PermChar(m.bits, 1) && s[3] == PermChar(m.bits, 2);
    assert s[4] == PermChar(m.bits, 3) && s[5] == PermChar(m.bits, 4) && s[6] == PermChar(m.bits, 5);
    assert s[7] == PermChar(m.bits, 6) && s[8] == PermChar(m.bits, 7) && s[9] == PermChar(m.bits, 8);
    CollectPermBits(m.bits);
  }

  /** Or-ing one candidate bit per position and masking with one position's
      bit keeps exactly that position's candidate, since the masks are disjoint. */
  lemma SelectBits(x0: bv32, x1: bv32, x2: bv32, x3: bv32, x4: bv32, x5: bv32, x6: bv32, x7: bv32, x8: bv32)
    requires x0 & 0x100 == x0 && x1 & 0x80 == x1 && x2 & 0x40 == x2
    requires x3 & 0x20 == x3 && x4 & 0x10 == x4 && x5 & 0x8 == x5
    requires x6 & 0x4 == x6 && x7 & 0x2 == x7 && x8 & 0x1 == x8
    ensures var all := x0 | x1 | x2 | x3 | x4 | x5 | x6 | x7 | x8;
      && all & 0x100 == x0 && all & 0x80 == x1 && all & 0x40 == x2
      && all & 0x20 == x3 && all & 0x10 == x4 && all & 0x8 == x5
      && all & 0x4 == x6 && all & 0x2 == x7 && all & 0x1 == x8
  {
  }

  lemma BitIfWithin(c: char, mask: bv32)
    ensures BitIf(c, mask) & mask == BitIf(c, mask)
  {
    if c != '-' {
      assert mask & mask == mask;
    }
  }

  /** Masking the decoded bits with position `k - 1`'s bit recovers whether
      position `k` of the string is a dash. */
  lemma DecodeBitsSelect(s: string, k: nat)
    requires |s| == 10 && 1 <= k < 10
    ensures DecodeBits(s) & Mask(k - 1) == BitIf(s[k], Mask(k - 1))
  {
    BitIfWithin(s[1], 0x100); BitIfWithin(s[2], 0x80); BitIfWithin(s[3], 0x40);
    BitIfWithin(s[4], 0x20); BitIfWithin(s[5], 0x10); BitIfWithin(s[6], 0x8);
    BitIfWithin(s[7], 0x4); BitIfWithin(s[8], 0x2); BitIfWithin(s[9], 0x1);
    SelectBits(BitIf(s[1], 0x100), BitIf(s[2], 0x80), BitIf(s[3], 0x40),
      BitIf(s[4], 0x20), BitIf(s[5], 0x10), BitIf(s[6], 0x8),
      BitIf(s[7], 0x4), BitIf(s[8], 0x2), BitIf(s[9], 0x1));
  }

  /** Every well-formed permission string is produced by the mode it decodes to. */
  lemma EncodeRoundTrip(s: string)
    requires WellFormed(s)
    ensures PermissionsString(Decode(s).value) == s
  {
    var t := PermissionsString(Decode(s).value);
    forall k | 1 <= k < 10
      ensures t[k] == s[k]
    {
      DecodeBitsSelect(s, k);
    }
  }

  lemma MaskWithinPermBits(b: bv32, i: nat)
    requires i < 9
    ensures b & PermBits & Mask(i) == b & Mask(i)
  {
  }

  lemma CanonicalString(m: FileMode)
    ensures PermissionsString(Canonical(m)) == PermissionsString(m)
  {
    var s, t := PermissionsString(Canonical(m)), PermissionsString(m);
    forall k | 1 <= k < 10
      ensures s[k] == t[k]
    {
      MaskWithinPermBits(m.bits, k - 1);
    }
  }

  /** Two modes give the same string exactly when they agree on the type as
      shown and on the nine permission bits; setuid, sticky and every other
      bit are ignored. */
  lemma SameStringIffSameCanonical(m1: FileMode, m2: FileMode)
    ensures PermissionsString(m1) == PermissionsString(m2) <==> Canonical(m1) == Canonical(m2)
  {
    DecodeRoundTrip(m1);
    DecodeRoundTrip(m2);
    if Canonical(m1) == Canonical(m2) {
      CanonicalString(m1);
      CanonicalString(m2);
    }
  }

  /** Octal 0755 on a regular file and on a directory. */
  lemma PermissionsExamples()
    ensures PermissionsString(FileMode(false, false, 0x1ED)) == "-rwxr-xr-x"
    ensures PermissionsString(FileMode(true, false, 0x1ED)) == "drwxr-xr-x"
  {
    EncodeRoundTrip("-rwxr-xr-x");
    EncodeRoundTrip("drwxr-xr-x");
  }
}

=== FILE: wrappers.dfy ===
/** Failure-carrying datatypes shared by the listing model. */
module Wrappers {

  /** A value that may be absent, as Go's `(value, err)` pairs are when only the
      presence of the value matters. */
  datatype Option<+T> = None | Some(value: T)

  /** A value or the error that prevented computing it. */
  datatype Result<+R, +E> = Success(value: R) | Failure(error: E)
}
